=== FILE: README.md ===
# RedTown scraper and job runner: a Dafny model

This project models the decision logic of RedTown's Reddit media scraper
(`backend/reddit_scraper.py`) and of the job runner that drives it
(`backend/job_runner.py`), and proves properties of that model with Dafny.

The scraper walks a subreddit's `new.json` listing page by page. From each
post it takes:
- a video, handed to `yt-dlp`;
- the gallery images;
- the post's destination URL, downloaded as an image or a gif by suffix.

Every direct download is validated by its Content-Type and Content-Length
headers and by the size of the written file. The run counts images, gifs,
videos and `files_downloaded`, and succeeds when at least one file was
counted; the process exit code follows from that.

The job runner scans its base directory for `job_*.json` files in sorted
order. It skips a job whose status record is already "running",
"completed" or "failed". Otherwise it writes "running", runs the scraper
as a child process, and writes "completed" (with the stats) or "failed"
(with a fixed message).

I/O is replaced by oracles and by data:
- the listing is a finite sequence of responses, consumed in request order;
- each media request is answered by a function of (attempt number, URL)
  giving headers and how the body transfer ended;
- `yt-dlp` is a function of (attempt number, URL) giving "returned with an
  exit code" or "raised";
- the scraper child process is a function of (target, job id) giving
  "returned with an exit code and the stats file's content" or "raised";
- files are a map from (directory, base name) to size.

Modules, one per concern:
- `Base`: `Option`, and `Attempt` (a Python call returned or raised).
- `Text`: `startswith`, `endswith`, `in`, `lower`, `split(c)[0]`,
  `replace(p, "")`, `os.path.basename`.
- `Html`: `html.escape` and the `html.unescape` subset met in listing URLs.
- `Media`: `MIN_FILE_SIZE`, `int()` on a header, `is_valid_media`,
  `download_binary`.
- `Classifier`: a post's media references, in fetch order.
- `Crawl`: the statistics, fetching, one loop iteration, the walk, the
  run's outcome and the exit code.
- `JobRunner`: job files, job ids, the skip rule, status records, one pass.
- `Pipeline`: the scraper as the runner sees it, and three end-to-end
  scenarios (one JPEG, an HTML error page, an HTTP 500).

## Behaviour a reader might not expect

The model follows the code:
- There is no deduplication of URLs within a page (`Crawl.NoDeduplication`).
- A completed but undersized download returns false and leaves the short
  file on disk; only an exception removes the file (`Media.UndersizedKept`).
- A video is counted whenever `yt-dlp` returns, whatever its exit code.
- The walk stops on the empty-page counter; there is no idle-time limit.
- An exception in a download removes the file at the output path even when
  it was written by an earlier, counted download of a URL with the same
  base name (`Crawl.RaisingFetchRemovesSameNamedFile`).
- Status files are written directly, not atomically.
- A failed listing request (timeout, connection error) is not caught: the
  scraper dies with exit code 1 and writes no stats file, and the job fails.
- A gallery URL whose base name is empty, "." or ".." (one ending in '/',
  say) makes the output path the images directory or its parent. Unless its
  headers are rejected first, opening or fetching raises, and the cleanup's
  `os.remove` on the directory raises again outside the `try`: the whole
  scrape dies and the job fails (`Media.DownloadIntoDirectory`,
  `Crawl.DirectoryNameCrashes`, `Pipeline.CrashedRunFails`). A single-image
  or gif URL never names a directory, as its suffix test rules that out
  (`Classifier.DestinationNamesFile`).

## Model

| member | source | states |
|---|---|---|
| Text.ContainsIffOccurs | backend/reddit_scraper.py:89 | `h in url` holds exactly when `h` occurs at some position of the URL |
| Text.CutAt | backend/reddit_scraper.py:115 | `split("?")[0]` is the prefix of the source before its first '?', and holds no '?' |
| Text.CutAtUnique | backend/reddit_scraper.py:115 | those three properties determine `split("?")[0]` uniquely |
| Text.RemoveAll | backend/job_runner.py:41 | `replace(p, "")` never lengthens the name, and keeps its length exactly when `p` does not occur in it |
| Text.RemoveAllAbsent | backend/job_runner.py:41 | a name without ".json" is its own job id |
| Text.BaseName | backend/reddit_scraper.py:116 | the output name is a suffix of the URL without '/', preceded by '/' when shorter than the URL |
| Text.Lower | backend/reddit_scraper.py:123 | lower-casing keeps the length and lower-cases each character |
| Html.Unescape | backend/reddit_scraper.py:115 | unescaping never lengthens a URL, and leaves a URL without '&' as it is |
| Html.UnescapeEscape | backend/reddit_scraper.py:115 | unescaping a gallery URL undoes the HTML escaping of the listing, for every string |
| Html.EscapeKeepsOutQuestionMark | backend/reddit_scraper.py:115 | escaping adds no '?', so the query cut is not moved by the escaping |
| Media.PyInt | backend/reddit_scraper.py:25 | `int()` on a header returns exactly when the value, stripped of ASCII whitespace (space and U+0009 to U+000D only), is a decimal literal of at most 4300 digits, underscores not counted, and raises otherwise |
| Media.PyIntShow | backend/reddit_scraper.py:25 | `int()` reads back every non-negative number written in decimal with at most 4300 digits, and raises on a longer one |
| Media.ShowLength | backend/reddit_scraper.py:25 | a number is written with at most k digits exactly when it is below 10^k, so the digit limit admits exactly the lengths below 10^4300 |
| Media.SeparatorNotSkipped | backend/reddit_scraper.py:25 | a Content-Length that starts with one of the separators U+001C to U+001F makes `int()` raise: `int()` does not strip them |
| Media.ContentLength | backend/reddit_scraper.py:25 | a missing or empty Content-Length reads as 0; any other value goes through `int()` |
| Media.IsValidMedia | backend/reddit_scraper.py:23-26 | valid iff Content-Type starts with the prefix and the length is at least 8192; raises iff the length is malformed, whatever the type |
| Media.MissingLengthInvalid | backend/reddit_scraper.py:24-26 | a response without a Content-Length, or with an empty one, is never valid |
| Media.ValidMediaDecimal | backend/reddit_scraper.py:15-26 | with a decimal length n, the check raises iff n has more than 4300 digits, and otherwise is valid iff the type has the prefix and n >= 8 * 1024 |
| Media.DownloadBinary | backend/reddit_scraper.py:29-41 | true only with a file of at least MIN_FILE_SIZE at `out`; rejected headers leave `out` untouched; an exception removes `out`; an undersized complete write stays |
| Media.DownloadCasesExhaustive | backend/reddit_scraper.py:29-41 | every fetch is rejected by headers, raises, or completes a validated transfer, and never both of the first two |
| Media.UndersizedKept | backend/reddit_scraper.py:34-37 | a validated transfer shorter than the floor returns false and leaves the short file in place |
| Media.DownloadIntoDirectory | backend/reddit_scraper.py:29-41 | with a directory as `out`, the call returns false exactly when the headers are rejected, and otherwise raises out of the `except` (the `os.remove` of a directory) |
| Classifier.VideoUrl | backend/reddit_scraper.py:86-92 | the fallback URL of an embedded video takes precedence and suppresses the host test; otherwise a URL on redgifs/streamable/imgur is chosen; an empty choice means no video |
| Classifier.CleanGalleryUrl | backend/reddit_scraper.py:115 | the cleaned URL is no longer than the part before the first '?', and is that part when it holds no '&' |
| Classifier.CleanGalleryUrlRoundTrip | backend/reddit_scraper.py:115 | an escaped gallery URL with a query string is cleaned back to the URL |
| Classifier.CleanGalleryUrlPlain | backend/reddit_scraper.py:115 | a URL with neither '?' nor '&' is used as it is |
| Classifier.GalleryRefs | backend/reddit_scraper.py:111-117 | at most one reference per gallery item, all of kind image |
| Classifier.GalleryRefsOne | backend/reddit_scraper.py:111-117 | an item without a source, or with an empty one, gives nothing; any other gives one image reference to its cleaned URL |
| Classifier.GalleryRefsAppend | backend/reddit_scraper.py:111-117 | the items are taken in order: the references of `a + b` are those of `a` followed by those of `b` |
| Classifier.DestinationRefs | backend/reddit_scraper.py:121-134 | the destination URL gives one reference iff it ends, ignoring case, in .jpg/.jpeg/.png (image) or .gif (gif), and none otherwise |
| Classifier.ImageAndGifExclusive | backend/reddit_scraper.py:123-130 | no URL passes both the image test and the gif test |
| Classifier.Refs | backend/reddit_scraper.py:85-134 | a chosen video comes first and is the only video; a gif can only be the last reference and is the destination URL; at most the gallery plus two |
| Classifier.VideoRefs | backend/reddit_scraper.py:85-92 | one video reference exactly when a video URL is chosen, to that URL, and none otherwise |
| Classifier.RefsOrder | backend/reddit_scraper.py:85-134 | a post's references are its video reference, then every gallery image in order, then the destination's single image or gif, with nothing left out or added |
| Classifier.DestinationNamesFile | backend/reddit_scraper.py:121-134 | a URL that passes the image or the gif suffix test has a base name that is not empty, "." or ".." |
| Crawl.Count | backend/reddit_scraper.py:105-106 | each count bumps exactly one kind counter and `files_downloaded` together, keeping total = images + gifs + videos |
| Crawl.SuccessIffSomeMedia | backend/reddit_scraper.py:148-149 | with consistent counters, success means some kind counter is positive |
| Crawl.FetchRef | backend/reddit_scraper.py:92-134 | one attempt per reference; counted iff it succeeds; the run crashes iff this attempt raises out of `download_binary`; a counted download leaves a file of at least the floor at its path; a video or a directory path leaves the files alone |
| Crawl.FetchRefFiles | backend/reddit_scraper.py:29-41 | for an image or gif whose path is not a directory, the file left at the output path is exactly what `download_binary` leaves there from the old file and the response; no other path changes for any reference |
| Crawl.FetchAll | backend/reddit_scraper.py:82-134 | once the run has crashed nothing more is fetched; the cursor and the empty-page counter are untouched |
| Crawl.FetchAllAttempts | backend/reddit_scraper.py:82-134 | one attempt per reference, duplicates included, up to and including the one that crashes the run |
| Crawl.FetchAllCrashes | backend/reddit_scraper.py:82-134 | the run crashes exactly when one of the references raises out of `download_binary` |
| Crawl.FetchAllCounts | backend/reddit_scraper.py:82-134 | each kind counter grows by the number of counted attempts of that kind before a crash |
| Crawl.FetchAllAppend | backend/reddit_scraper.py:82-134 | fetching `a + b` is fetching `a`, then `b` from where `a` left off |
| Crawl.ProcessPosts | backend/reddit_scraper.py:82-134 | processing a page keeps the cursor and the empty-page counter, and keeps the counters consistent and growing |
| Crawl.ProcessPostsFetchesPageRefs | backend/reddit_scraper.py:82-134 | processing the posts is fetching all their references, post after post, in order |
| Crawl.ProcessPostsTallies | backend/reddit_scraper.py:82-134 | a page makes one attempt per reference up to a crash, crashes iff one of them raises, and grows each kind counter by the counted attempts of that kind |
| Crawl.NoDeduplication | backend/reddit_scraper.py:82-134 | a post seen twice on a page has its references fetched twice, in order |
| Crawl.VideoCountedOnAnyExit | backend/reddit_scraper.py:92-108 | a chosen video is counted whatever `yt-dlp`'s exit code; only a raise prevents it |
| Crawl.RaisingFetchRemovesSameNamedFile | backend/reddit_scraper.py:38-41 | a raising download deletes the same-named file, an earlier counted one included, and counts nothing |
| Crawl.DirectoryNameCrashes | backend/reddit_scraper.py:110-119 | an image whose output path is a directory is never counted and changes no file; it crashes the run unless its headers are rejected |
| Crawl.Params | backend/reddit_scraper.py:66-69 | each listing request carries limit=100, and the cursor iff it is truthy |
| Crawl.Step | backend/reddit_scraper.py:71-138 | a request error or non-200 status stops unchanged; an empty page bumps the counter and keeps cursor, stats and files; a page with posts resets it, stops on a crash, and otherwise takes the new cursor and stops iff it is falsy |
| Crawl.StepProcessesPage | backend/reddit_scraper.py:82-134 | a page with posts has every reference of its posts attempted up to a crash, and each kind counter grows by the counted attempts of that kind |
| Crawl.EmptyPageRepeatsRequest | backend/reddit_scraper.py:68-78 | after an empty page the same request is made again |
| Crawl.StepIsLoopBody | backend/reddit_scraper.py:65-138 | each iteration goes on only after an empty page or a page with a truthy cursor, stops for a reason its response gives, and never lowers a counter |
| Crawl.Walk | backend/reddit_scraper.py:62-140 | the walk consumes at most the given responses, stops on the empty-page limit only once it is reached, consumes a response for every other stop, and the counters only grow and stay consistent |
| Crawl.WalkExitCause | backend/reddit_scraper.py:65-140 | every consumed response but the last lets the loop go on, and the last one explains the exit: a non-200 status, a raise, or a non-empty page without a next cursor |
| Crawl.WalkIgnoresLaterResponses | backend/reddit_scraper.py:65-140 | a walk that ended on its own is unchanged by further responses |
| Crawl.WalkStopsOnError | backend/reddit_scraper.py:71-73 | a non-200 first response ends the walk with nothing changed |
| Crawl.WalkStopsAfterEmptyPages | backend/reddit_scraper.py:65-78 | consecutive empty pages up to the limit end the walk with cursor and stats untouched |
| Crawl.EmptyLimitFollowsEmptyPages | backend/reddit_scraper.py:65-80 | the walk stops for the limit only right after three empty pages (or all it consumed, when the counter was already raised) |
| Crawl.Scrape | backend/reddit_scraper.py:44-150 | a finished run's stats satisfy total = images + gifs + videos; the run crashes iff a listing request raised or a download into a directory path raised |
| Crawl.ScrapeFinishes | backend/reddit_scraper.py:140-150 | a walk that stopped without a raise finishes the run with the statistics it collected |
| Crawl.ExitCode | backend/reddit_scraper.py:153-155 | the exit code is 0 or 1, and 0 iff the run finished with `files_downloaded > 0` |
| Crawl.ExitCodeOfScrape | backend/reddit_scraper.py:148-155 | the scraper exits 0 iff it finished having counted some image, gif or video |
| JobRunner.JobEntries | backend/job_runner.py:35-38 | keeps exactly the `job_*.json` entries, with their multiplicity |
| JobRunner.LexLeTotal | backend/job_runner.py:35 | Python's string order is total |
| JobRunner.LexLeTrans | backend/job_runner.py:35 | Python's string order is transitive |
| JobRunner.Insert | backend/job_runner.py:35 | insertion keeps the list sorted and adds exactly the element |
| JobRunner.Sort | backend/job_runner.py:35 | `sorted` returns a sorted permutation |
| JobRunner.JobFiles | backend/job_runner.py:35-38 | the jobs are the `job_*.json` entries, sorted, each exactly as often as listed |
| JobRunner.JobId | backend/job_runner.py:41 | the id is never longer than the name, and is the name exactly when ".json" does not occur in it |
| JobRunner.JobIdAfterStem | backend/job_runner.py:41 | every ".json" is removed, not only the suffix |
| JobRunner.JobIdOfPlainName | backend/job_runner.py:41 | a name `stem.json` whose stem holds no ".json" has id `stem` |
| JobRunner.JobIdDropsRepeatedSuffix | backend/job_runner.py:41 | `stem.json.json` and `stem.json` share the id `stem` |
| JobRunner.RunningRecord | backend/job_runner.py:53 | the record written before the child runs blocks re-dispatch |
| JobRunner.Finish | backend/job_runner.py:20-28 | "completed" iff exit code 0 and the stats file exists, with the stats and no error; otherwise "failed", with `{}` and "No valid media downloaded" |
| JobRunner.RunJobs | backend/job_runner.py:40-72 | a blocked job keeps its record and is not dispatched; only dispatched jobs' records change, each to a blocking state |
| JobRunner.FirstJobSkipRule | backend/job_runner.py:44-47 | the first job file is dispatched first exactly when its id has no status record in "running", "completed" or "failed" |
| JobRunner.DispatchedOnceEach | backend/job_runner.py:40-72 | every dispatched id comes from a listed job file, and none is dispatched twice in a pass |
| JobRunner.PassBlocksAll | backend/job_runner.py:44-72 | after a pass that did not die, every listed job is blocked |
| JobRunner.PassDispatchesUnblocked | backend/job_runner.py:44-72 | a pass that did not die dispatched exactly the listed jobs not blocked before it |
| JobRunner.PassRecords | backend/job_runner.py:53-72 | every dispatched job ends "completed" or "failed", except the one a dying pass leaves "running" |
| JobRunner.PassRecordsFinish | backend/job_runner.py:53-72 | a job dispatched in a pass that did not die has its child return, and its record is the one written from that exit code and stats file |
| JobRunner.AllBlockedNoDispatch | backend/job_runner.py:44-47 | when every job is blocked, a pass changes nothing |
| JobRunner.Pass | backend/job_runner.py:34-72 | dispatched ids come from listed `job_*.json` files, none twice, each with a settled record; a pass that did not die dispatched exactly the unblocked ones and leaves every listed job blocked |
| JobRunner.PassIdempotent | backend/job_runner.py:34-74 | scanning again after a pass that did not die dispatches nothing and rewrites nothing |
| Pipeline.ScraperProcess | backend/reddit_scraper.py:142-155 | the scraper process exits 0 iff it finished with a counted file, and a finished run leaves its stats file |
| Pipeline.JobCompletedIffMediaDownloaded | backend/job_runner.py:63-72 | a job completes iff its scraper finished with a counted file, recording that run's stats; a stale stats file never completes a job |
| Pipeline.JobStateAfter | backend/job_runner.py:63-72 | the job's state after a scrape is "completed" iff some image, gif or video was counted, else "failed" |
| Pipeline.NothingCountedFails | backend/job_runner.py:65-72 | a run that finished counting nothing fails its job |
| Pipeline.CrashedRunFails | backend/job_runner.py:65-72 | a crashed run fails its job, whatever stats file an earlier run left |
| Pipeline.ImageLinkRefs | backend/reddit_scraper.py:121-128 | a link post to an image URL not on redgifs/streamable/imgur yields that single image reference |
| Pipeline.UpperCaseJpgIsImageLink | backend/reddit_scraper.py:123 | ".JPG" passes the image suffix test |
| Pipeline.OnePageWalk | backend/reddit_scraper.py:65-138 | one page with one image link post and no cursor fetches that image and stops |
| Pipeline.JpegServedSucceeds | backend/reddit_scraper.py:23-37 | an image/jpeg response of 20000 bytes is a successful download |
| Pipeline.FirstImageCounts | backend/reddit_scraper.py:122-126 | an image link downloaded on the run's first attempt counts one image and one file |
| Pipeline.ScenarioOneJpeg | backend/reddit_scraper.py:44-150 | one JPEG link served as image/jpeg, 20000 bytes: images 1, files_downloaded 1 |
| Pipeline.ScenarioOneJpegCompletes | backend/job_runner.py:65-68 | and the job completes |
| Pipeline.ScenarioHtmlErrorPage | backend/reddit_scraper.py:23-37 | the same link served as text/html counts nothing |
| Pipeline.ScenarioHtmlErrorPageFails | backend/job_runner.py:65-72 | and the job fails |
| Pipeline.ScenarioServerError | backend/reddit_scraper.py:71-73 | HTTP 500 on the first listing request gives zero stats |
| Pipeline.ScenarioServerErrorFails | backend/job_runner.py:65-72 | and the job fails |

## Left out

- HTTP requests, headers' case-insensitive lookup, streaming and 8192-byte chunking: a media request is an abstract outcome (headers plus "complete with n bytes" or "broken").
- The filesystem: directories, `os.makedirs`, JSON dump and load, the Android storage paths. Files are a map from (directory, base name) to size; the `videos/` directory is not tracked, because `yt-dlp` names its output.
- Timestamps (`started_at`, `ended_at`, `updated_at`) and `time.sleep`: wall-clock values with nothing to verify.
- `print` and the log files.
- The runner's endless `while True` loop: one pass over a listing is modelled; repeated passes are covered by `PassIdempotent`.
- Python crashes on malformed post JSON (`media: null`, a `reddit_video` without `fallback_url`, a non-JSON 200 body) and on unreadable job or status files: incidental exception behaviour.
- Media.PyInt: non-ASCII digits and non-ASCII whitespace, which Python's `int()` accepts, count as malformed here. The 4300-digit limit is the default of Python 3.11 and later (`sys.set_int_max_str_digits` can change it, and older interpreters have none); the model fixes it at 4300.
- Html.Unescape: only `&amp;`, `&lt;`, `&gt;`, `&quot;`, `&#39;` and `&#x27;` are decoded. Python's `html.unescape` also decodes every other HTML5 named reference, numeric references, and some names without the semicolon.
- Text.Lower: only ASCII letters are lower-cased. That is enough for the ASCII suffix tests.
- Crawl.Scrape: when the given responses run out before the loop ends, the outcome is `Incomplete`. This is a modelling artefact of a finite listing; the real listing always answers.
- Crawl.Scrape: the contents of the stats file beyond the four counters are not modelled.
- JobRunner.Finish: `stats or {}` is modelled with the loaded stats taken as non-empty, as the scraper always writes all four counters.
- JobRunner.RunJobs: the job file's `target` and the scraper child are oracles. A raising `subprocess.run` in the runner ends the pass with the job left "running", since the exception is not caught.
- A status file named like another job's stats file (`job_a_stats.json`) is not modelled: status records and stats files are kept apart.

=== FILE: base.dfy ===
/** Small failure-carrying datatypes shared by every module of the model. */
module Base {

  /** A value that may be missing: a JSON key that is absent, a header that
      was not sent, a status file that does not exist. */
  datatype Option<T> = None | Some(value: T) {
    function GetOr(default: T): T {
      match this
      case Some(v) => v
      case None => default
    }
  }

  /** The outcome of a Python call that either returns a value or raises. */
  datatype Attempt<T> = Returned(value: T) | Raised
}

=== FILE: classifier.dfy ===
/** Which media references one post of the listing yields, in the order
    the scraper fetches them: a video, then the gallery items, then the
    post's destination URL as an image or a gif. */
module Classifier {
  import opened Base
  import opened Text
  import Html

  /** The parts of a post's `data` object the scraper reads.
      - `isVideo`: `is_video`.
      - `redditVideo`: `Some(f)` when `media.reddit_video` is a non-empty
        object, `f` being its `fallback_url` ("" when that is null).
      - `url`: `url`, "" when the key is missing.
      - `gallery`: the values of `media_metadata`, in the JSON order.
      - `destination`: `url_overridden_by_dest`, "" when missing. */
  datatype Post = Post(
    isVideo: bool,
    redditVideo: Option<string>,
    url: string,
    gallery: seq<GalleryItem>,
    destination: string)

  /** One `media_metadata` value: `Some(u)` when it has `s.u`. */
  datatype GalleryItem = GalleryItem(source: Option<string>)

  /** The directory a reference is stored in, and the fetch strategy:
      videos go to the extractor, images and gifs are downloaded. */
  datatype Kind = Video | Image | Gif

  datatype MediaRef = MediaRef(kind: Kind, url: string)

  /** Hosts whose post URLs are handed to the video extractor. */
  const VIDEO_HOSTS: seq<string> := ["redgifs.com", "streamable.com", "imgur.com"]

  const IMAGE_SUFFIXES: seq<string> := [".jpg", ".jpeg", ".png"]

  const GIF_SUFFIX: string := ".gif"

  predicate HasEmbeddedVideo(p: Post) {
    p.isVideo && p.redditVideo.Some?
  }

  predicate OnVideoHost(u: string) {
    exists i :: 0 <= i < |VIDEO_HOSTS| && Contains(u, VIDEO_HOSTS[i])
  }

  /** The `video_url` the scraper settles on, when it is non-empty: the
      embedded video's fallback URL takes precedence over a post URL on a
      known video host; the host test is not made at all when the post has
      an embedded video. */
  function VideoUrl(p: Post): (r: Option<string>)
    ensures r.Some? ==> r.value != ""
    ensures HasEmbeddedVideo(p) ==> r == (if p.redditVideo.value == "" then None else p.redditVideo)
    ensures !HasEmbeddedVideo(p) ==> (r.Some? <==> OnVideoHost(p.url))
    ensures !HasEmbeddedVideo(p) && r.Some? ==> r.value == p.url
  {
    var chosen :=
      if HasEmbeddedVideo(p) then p.redditVideo.value
      else if OnVideoHost(p.url) then p.url
      else "";
    if chosen == "" then None else Some(chosen)
  }

  /** `html.unescape(src.split("?")[0])`: the gallery URL with its query
      string cut off at the first '?', then HTML-unescaped. A source with
      no character reference before its query is only cut. */
  function CleanGalleryUrl(src: string): (r: string)
    ensures |r| <= |CutAt(src, '?')|
    ensures '&' !in CutAt(src, '?') ==> r == CutAt(src, '?')
  {
    Html.Unescape(CutAt(src, '?'))
  }

  /** A gallery URL as the listing writes it (HTML-escaped, with a query
      string) is cleaned back to the URL itself. */
  lemma CleanGalleryUrlRoundTrip(u: string, query: string)
    requires '?' !in u
    ensures CleanGalleryUrl(Html.Escape(u) + "?" + query) == u
  {
    var e := Html.Escape(u);
    Html.EscapeKeepsOutQuestionMark(u);
    var s := e + "?" + query;
    assert e <= s && s[|e|] == '?';
    CutAtUnique(s, '?', e);
    Html.UnescapeEscape(u);
  }

  /** A URL with neither '?' nor '&' is used as it is. */
  lemma CleanGalleryUrlPlain(u: string)
    requires '?' !in u && '&' !in u
    ensures CleanGalleryUrl(u) == u
  {
    CutAtUnique(u, '?', u);
  }

  /** One image reference per gallery item with a non-empty source, in order. */
  function GalleryRefs(items: seq<GalleryItem>): (r: seq<MediaRef>)
    ensures |r| <= |items|
    ensures forall j :: 0 <= j < |r| ==> r[j].kind == Image
  {
    if |items| == 0 then []
    else
      var head :=
        match items[0].source
        case Some(src) => if src == "" then [] else [MediaRef(Image, CleanGalleryUrl(src))]
        case None => [];
      head + GalleryRefs(items[1..])
  }

  /** A single item yields its cleaned source as an image, unless the
      source is missing or empty. */
  lemma GalleryRefsOne(item: GalleryItem)
    ensures item.source.None? ==> GalleryRefs([item]) == []
    ensures item.source == Some("") ==> GalleryRefs([item]) == []
    ensures item.source.Some? && item.source.value != "" ==>
      GalleryRefs([item]) == [MediaRef(Image, CleanGalleryUrl(item.source.value))]
  {
    assert [item][1..] == [];
  }

  /** The items are taken one after the other: the references of a
      concatenation are the concatenation of the references. With
      `GalleryRefsOne` this determines `GalleryRefs` on every list. */
  lemma {:induction false} GalleryRefsAppend(a: seq<GalleryItem>, b: seq<GalleryItem>)
    ensures GalleryRefs(a + b) == GalleryRefs(a) + GalleryRefs(b)
    decreases |a|
  {
    if |a| == 0 {
      assert a + b == b;
    } else {
      assert (a + b)[0] == a[0];
      assert (a + b)[1..] == a[1..] + b;
      GalleryRefsAppend(a[1..], b);
    }
  }

  predicate IsImageName(u: string) {
    EndsWithAny(Lower(u), IMAGE_SUFFIXES)
  }

  predicate IsGifName(u: string) {
    EndsWith(Lower(u), GIF_SUFFIX)
  }

  /** The destination URL as an image, as a gif, or not at all. The two
      tests are written as separate `if`s in the scraper; no name passes
      both, so at most one reference comes out. */
  function DestinationRefs(u: string): (r: seq<MediaRef>)
    ensures |r| <= 1
    ensures |r| == 1 <==> IsImageName(u) || IsGifName(u)
    ensures |r| == 1 ==> r[0].url == u && (r[0].kind == Image <==> IsImageName(u))
    ensures |r| == 1 ==> (r[0].kind == Gif <==> IsGifName(u))
  {
    ImageAndGifExclusive(u);
    (if IsImageName(u) then [MediaRef(Image, u)] else [])
    + (if IsGifName(u) then [MediaRef(Gif, u)] else [])
  }

  /** No URL ends with both an image suffix and the gif suffix: the image
      suffixes all end in 'g', the gif suffix in 'f'. */
  lemma ImageAndGifExclusive(u: string)
    ensures !(IsImageName(u) && IsGifName(u))
  {
    var l := Lower(u);
    if IsGifName(u) {
      assert l[|l| - 1] == 'f';
      forall i | 0 <= i < |IMAGE_SUFFIXES|
        ensures !EndsWith(l, IMAGE_SUFFIXES[i])
      {
        var x := IMAGE_SUFFIXES[i];
        assert x[|x| - 1] == 'g';
      }
    }
  }

  /** Every reference the scraper fetches for one post, in fetch order:
      the chosen video comes first and is the only video; the gallery
      images follow; a gif can only be the destination URL, which comes
      last. */
  function Refs(p: Post): (r: seq<MediaRef>)
    ensures VideoUrl(p).Some? ==> |r| > 0 && r[0] == MediaRef(Video, VideoUrl(p).value)
    ensures forall j :: 0 <= j < |r| ==> (r[j].kind == Video <==> j == 0 && VideoUrl(p).Some?)
    ensures forall j :: 0 <= j < |r| && r[j].kind == Gif ==> j == |r| - 1 && r[j].url == p.destination
    ensures |r| <= |p.gallery| + 2
  {
    VideoRefs(p) + GalleryRefs(p.gallery) + DestinationRefs(p.destination)
  }

  /** The video reference of a post: the chosen video URL, if any. */
  function VideoRefs(p: Post): (r: seq<MediaRef>)
    ensures |r| <= 1
    ensures |r| == 1 <==> VideoUrl(p).Some?
    ensures |r| == 1 ==> r[0] == MediaRef(Video, VideoUrl(p).value)
  {
    match VideoUrl(p)
    case Some(v) => [MediaRef(Video, v)]
    case None => []
  }

  /** A post's references in fetch order: its video reference, then its
      gallery images, then its single image or gif. */
  lemma RefsOrder(p: Post)
    ensures var r := Refs(p);
      var v := VideoRefs(p);
      var g := GalleryRefs(p.gallery);
      && |r| == |v| + |g| + |DestinationRefs(p.destination)|
      && r[..|v|] == v
      && r[|v|..|v| + |g|] == g
      && r[|v| + |g|..] == DestinationRefs(p.destination)
  {
    var v := VideoRefs(p);
    var g := GalleryRefs(p.gallery);
    var d := DestinationRefs(p.destination);
    assert Refs(p) == v + g + d;
    assert (v + g + d)[..|v|] == v;
    assert (v + g + d)[|v|..|v| + |g|] == g;
    assert (v + g + d)[|v| + |g|..] == d;
  }

  /** An image or gif destination URL ends in a suffix whose last three
      characters are letters, so its base name is a file name, never empty,
      `.` or `..`. */
  lemma DestinationNamesFile(u: string)
    requires IsImageName(u) || IsGifName(u)
    ensures !NamesDirectory(BaseName(u))
  {
    var l := Lower(u);
    if IsGifName(u) {
      NoSlashAtEnd(l, GIF_SUFFIX);
    } else {
      var i :| 0 <= i < |IMAGE_SUFFIXES| && EndsWith(l, IMAGE_SUFFIXES[i]);
      NoSlashAtEnd(l, IMAGE_SUFFIXES[i]);
    }
  }

  /** A string ending in one of the suffixes has no '/' among its last
      three characters. */
  lemma NoSlashAtEnd(l: string, x: string)
    requires x == GIF_SUFFIX || x in IMAGE_SUFFIXES
    requires EndsWith(l, x)
    ensures |l| >= 4
    ensures forall k :: |l| - 3 <= k < |l| ==> l[k] != '/'
  {
    assert forall k :: |x| - 3 <= k < |x| ==> x[k] != '/';
    forall k | |l| - 3 <= k < |l| ensures l[k] != '/' {
      assert l[k] == x[k - (|l| - |x|)];
    }
  }
}

=== FILE: crawl.dfy ===
/** The crawl loop of `scrape`: pagination over the listing, the
    empty-page counter, fetching each post's media references, the run
    statistics, and the success decision with the process exit code. */
module Crawl {
  import opened Base
  import opened Text
  import opened Media
  import opened Classifier

  /** Consecutive empty pages after which the walk stops. */
  const EMPTY_PAGE_LIMIT: nat := 3

  /** The `limit` parameter of every listing request. */
  const PAGE_SIZE: nat := 100

  const HTTP_OK: int := 200

  // ---------------------------------------------------------------------
  // Statistics
  // ---------------------------------------------------------------------

  /** The counters of the stats record; the timestamps are not modelled. */
  datatype Stats = Stats(images: nat, gifs: nat, videos: nat, filesDownloaded: nat)

  const NoStats: Stats := Stats(0, 0, 0, 0)

  /** The total is the sum of the three kind counters. */
  predicate Consistent(s: Stats) {
    s.filesDownloaded == s.images + s.gifs + s.videos
  }

  /** Every counter of `t` is at least the one of `s`. */
  predicate Grows(s: Stats, t: Stats) {
    s.images <= t.images && s.gifs <= t.gifs && s.videos <= t.videos
    && s.filesDownloaded <= t.filesDownloaded
  }

  /** One more file of kind `k`: its kind counter and the total both go up
      by one, and nothing else changes. */
  function Count(s: Stats, k: Kind): (r: Stats)
    ensures r.filesDownloaded == s.filesDownloaded + 1
    ensures r.images == s.images + (if k == Image then 1 else 0)
    ensures r.gifs == s.gifs + (if k == Gif then 1 else 0)
    ensures r.videos == s.videos + (if k == Video then 1 else 0)
    ensures Consistent(s) ==> Consistent(r)
  {
    match k
    case Image => s.(images := s.images + 1, filesDownloaded := s.filesDownloaded + 1)
    case Gif => s.(gifs := s.gifs + 1, filesDownloaded := s.filesDownloaded + 1)
    case Video => s.(videos := s.videos + 1, filesDownloaded := s.filesDownloaded + 1)
  }

  /** The counter of kind `k`. */
  function Tally(s: Stats, k: Kind): nat {
    match k
    case Image => s.images
    case Gif => s.gifs
    case Video => s.videos
  }

  /** The run succeeds when at least one file was counted. */
  predicate Success(s: Stats) {
    s.filesDownloaded > 0
  }

  /** For consistent counters, success means some kind counter is positive. */
  lemma SuccessIffSomeMedia(s: Stats)
    requires Consistent(s)
    ensures Success(s) <==> s.images > 0 || s.gifs > 0 || s.videos > 0
  {
  }

  // ---------------------------------------------------------------------
  // Fetching one reference
  // ---------------------------------------------------------------------

  /** What the call to the video extractor did: it returned with an exit
      code, or it raised (timeout, missing executable). */
  datatype ExtractOutcome = Exited(code: int) | ExtractRaised

  /** The network and the extractor, as oracles indexed by the number of
      fetch attempts made before in the run, so that the same URL may be
      answered differently on two attempts. */
  datatype Env = Env(
    fetch: (nat, string) -> FetchOutcome,
    extract: (nat, string) -> ExtractOutcome)

  /** A file of the job's `images/` or `gifs/` directory. */
  datatype Path = Path(kind: Kind, name: string)

  /** The loop's variables, the fetch attempts made so far, the files on
      disk, and whether a download raised out of `download_binary`, which
      ends the run. */
  datatype CrawlState = CrawlState(
    after: Option<string>,
    empty: nat,
    stats: Stats,
    attempts: nat,
    files: map<Path, nat>,
    crashed: bool)

  function FileAt(files: map<Path, nat>, p: Path): FileState {
    if p in files then Present(files[p]) else Absent
  }

  function Store(files: map<Path, nat>, p: Path, f: FileState): map<Path, nat> {
    match f
    case Present(n) => files[p := n]
    case Absent => files - {p}
  }

  /** The output path of a downloaded reference. */
  function OutPath(r: MediaRef): Path {
    Path(r.kind, BaseName(r.url))
  }

  /** The attempt with index `i` at `r` raises out of `download_binary`:
      an image or gif whose output path is a directory, answered with
      anything but rejected headers. */
  predicate Crashes(env: Env, i: nat, r: MediaRef) {
    && r.kind != Video
    && NamesDirectory(BaseName(r.url))
    && DownloadIntoDirectory(env.fetch(i, r.url), IMAGE_PREFIX).Raised?
  }

  /** Whether the attempt with index `i` at reference `r` is counted: a
      video whenever the extractor returns, whatever its exit code; an
      image or a gif when the download into a file succeeds. */
  predicate Succeeds(env: Env, i: nat, r: MediaRef) {
    if r.kind == Video then env.extract(i, r.url).Exited?
    else !NamesDirectory(BaseName(r.url)) && DownloadOk(env.fetch(i, r.url), IMAGE_PREFIX)
  }

  /** Fetch one reference and count it on success. */
  function FetchRef(c: CrawlState, r: MediaRef, env: Env): (c': CrawlState)
    ensures c'.attempts == c.attempts + 1
    ensures c'.stats == if Succeeds(env, c.attempts, r) then Count(c.stats, r.kind) else c.stats
    ensures c'.after == c.after && c'.empty == c.empty
    ensures c'.crashed <==> c.crashed || Crashes(env, c.attempts, r)
    ensures r.kind != Video && Succeeds(env, c.attempts, r) ==>
      OutPath(r) in c'.files && c'.files[OutPath(r)] >= MIN_FILE_SIZE
    ensures r.kind == Video || NamesDirectory(OutPath(r).name) ==> c'.files == c.files
  {
    if r.kind == Video then
      var c1 := c.(attempts := c.attempts + 1);
      match env.extract(c.attempts, r.url)
      case Exited(_) => c1.(stats := Count(c.stats, Video))
      case ExtractRaised => c1
    else
      var p := OutPath(r);
      var fetch := env.fetch(c.attempts, r.url);
      if NamesDirectory(p.name) then
        match DownloadIntoDirectory(fetch, IMAGE_PREFIX)
        case Raised => c.(attempts := c.attempts + 1, crashed := true)
        case Returned(_) => c.(attempts := c.attempts + 1)
      else
        var d := DownloadBinary(FileAt(c.files, p), fetch, IMAGE_PREFIX);
        c.(attempts := c.attempts + 1,
           files := Store(c.files, p, d.file),
           stats := if d.ok then Count(c.stats, r.kind) else c.stats)
  }

  /** The files after one fetch: an image or gif whose output path names a
      file leaves there what `download_binary` leaves at `out` (untouched
      on rejected headers, removed on a raise, the written file otherwise,
      undersized or not); no other path changes, whatever the reference. */
  lemma FetchRefFiles(c: CrawlState, r: MediaRef, env: Env)
    ensures r.kind != Video && !NamesDirectory(OutPath(r).name) ==>
      FileAt(FetchRef(c, r, env).files, OutPath(r))
        == DownloadBinary(FileAt(c.files, OutPath(r)), env.fetch(c.attempts, r.url), IMAGE_PREFIX).file
    ensures forall p :: p != OutPath(r) ==> FileAt(FetchRef(c, r, env).files, p) == FileAt(c.files, p)
  {
    var c' := FetchRef(c, r, env);
    if r.kind != Video && !NamesDirectory(OutPath(r).name) {
      var d := DownloadBinary(FileAt(c.files, OutPath(r)), env.fetch(c.attempts, r.url), IMAGE_PREFIX);
      assert c'.files == Store(c.files, OutPath(r), d.file);
      StoreFrame(c.files, OutPath(r), d.file);
    }
  }

  /** Storing at `q` sets `q` and changes no other path. */
  lemma StoreFrame(files: map<Path, nat>, q: Path, f: FileState)
    ensures FileAt(Store(files, q, f), q) == f
    ensures forall p :: p != q ==> FileAt(Store(files, q, f), p) == FileAt(files, p)
  {
  }

  /** Some reference of `refs`, the first being attempted with index
      `start`, crashes the run, counting only attempts made before it. */
  predicate CrashesIn(env: Env, start: nat, refs: seq<MediaRef>)
    decreases |refs|
  {
    |refs| > 0 && (Crashes(env, start, refs[0]) || CrashesIn(env, start + 1, refs[1..]))
  }

  /** The number of attempts made on `refs`: all of them, or up to and
      including the one that crashes the run. */
  function Attempted(env: Env, start: nat, refs: seq<MediaRef>): (n: nat)
    ensures n <= |refs|
    ensures !CrashesIn(env, start, refs) ==> n == |refs|
    ensures CrashesIn(env, start, refs) ==> n > 0
    decreases |refs|
  {
    if |refs| == 0 then 0
    else if Crashes(env, start, refs[0]) then 1
    else 1 + Attempted(env, start + 1, refs[1..])
  }

  /** The number of references of kind `k` in `refs`, attempted with index
      `start` plus their position, that are counted before the run
      crashes. */
  function Successes(env: Env, start: nat, refs: seq<MediaRef>, k: Kind): nat
    decreases |refs|
  {
    if |refs| == 0 || Crashes(env, start, refs[0]) then 0
    else
      (if refs[0].kind == k && Succeeds(env, start, refs[0]) then 1 else 0)
      + Successes(env, start + 1, refs[1..], k)
  }

  /** Fetch the references in order, stopping when the run crashes. */
  function FetchAll(c: CrawlState, refs: seq<MediaRef>, env: Env): (c': CrawlState)
    ensures c.crashed ==> c' == c
    ensures c'.after == c.after && c'.empty == c.empty
    decreases |refs|
  {
    if |refs| == 0 || c.crashed then c else FetchAll(FetchRef(c, refs[0], env), refs[1..], env)
  }

  /** The run crashes on `refs` exactly when one of its references crashes. */
  lemma {:induction false} FetchAllCrashes(c: CrawlState, refs: seq<MediaRef>, env: Env)
    requires !c.crashed
    ensures FetchAll(c, refs, env).crashed <==> CrashesIn(env, c.attempts, refs)
    decreases |refs|
  {
    if |refs| > 0 {
      var c1 := FetchRef(c, refs[0], env);
      assert FetchAll(c, refs, env) == FetchAll(c1, refs[1..], env);
      if c1.crashed {
        assert Crashes(env, c.attempts, refs[0]);
      } else {
        assert CrashesIn(env, c.attempts, refs) == CrashesIn(env, c1.attempts, refs[1..]);
        FetchAllCrashes(c1, refs[1..], env);
      }
    }
  }

  /** One attempt is made per reference, duplicates included, up to the
      one that crashes the run. */
  lemma {:induction false} FetchAllAttempts(c: CrawlState, refs: seq<MediaRef>, env: Env)
    requires !c.crashed
    ensures FetchAll(c, refs, env).attempts == c.attempts + Attempted(env, c.attempts, refs)
    decreases |refs|
  {
    if |refs| > 0 {
      var c1 := FetchAllHead(c, refs, env);
      if c1.crashed {
        AttemptedFirstCrashes(env, c.attempts, refs);
      } else {
        AttemptedFirstPasses(env, c.attempts, refs);
        FetchAllAttempts(c1, refs[1..], env);
      }
    }
  }

  /** The first reference's fetch, as far as the rest of the walk over
      `refs` depends on it. */
  lemma FetchAllHead(c: CrawlState, refs: seq<MediaRef>, env: Env) returns (c1: CrawlState)
    requires !c.crashed && |refs| > 0
    ensures FetchAll(c, refs, env) == FetchAll(c1, refs[1..], env)
    ensures c1.attempts == c.attempts + 1
    ensures c1.crashed <==> Crashes(env, c.attempts, refs[0])
    ensures c1.crashed ==> FetchAll(c1, refs[1..], env) == c1
  {
    c1 := FetchRef(c, refs[0], env);
  }

  lemma AttemptedFirstCrashes(env: Env, start: nat, refs: seq<MediaRef>)
    requires |refs| > 0 && Crashes(env, start, refs[0])
    ensures Attempted(env, start, refs) == 1
  {
  }

  lemma AttemptedFirstPasses(env: Env, start: nat, refs: seq<MediaRef>)
    requires |refs| > 0 && !Crashes(env, start, refs[0])
    ensures Attempted(env, start, refs) == 1 + Attempted(env, start + 1, refs[1..])
  {
  }

  /** Each kind counter grows by the number of counted attempts of that
      kind. */
  lemma {:induction false} FetchAllCounts(c: CrawlState, refs: seq<MediaRef>, env: Env, k: Kind)
    requires !c.crashed
    ensures Tally(FetchAll(c, refs, env).stats, k) == Tally(c.stats, k) + Successes(env, c.attempts, refs, k)
    decreases |refs|
  {
    if |refs| > 0 {
      var c1 := FetchRef(c, refs[0], env);
      assert FetchAll(c, refs, env) == FetchAll(c1, refs[1..], env);
      if !Crashes(env, c.attempts, refs[0]) {
        FetchAllCounts(c1, refs[1..], env, k);
      }
    }
  }

  /** The total grows exactly as the three kind counters together. */
  lemma {:induction false} FetchAllTotal(c: CrawlState, refs: seq<MediaRef>, env: Env)
    ensures var t := FetchAll(c, refs, env).stats;
      t.filesDownloaded - (t.images + t.gifs + t.videos)
        == c.stats.filesDownloaded - (c.stats.images + c.stats.gifs + c.stats.videos)
    decreases |refs|
  {
    if |refs| > 0 && !c.crashed {
      FetchAllTotal(FetchRef(c, refs[0], env), refs[1..], env);
    }
  }

  /** The attempts, the crash and the kind counters of a fetch from a
      state that has not crashed, together. */
  lemma FetchAllTallies(c: CrawlState, refs: seq<MediaRef>, env: Env)
    ensures var c' := FetchAll(c, refs, env);
      !c.crashed ==>
        && c'.attempts == c.attempts + Attempted(env, c.attempts, refs)
        && (c'.crashed <==> CrashesIn(env, c.attempts, refs))
        && forall k :: Tally(c'.stats, k) == Tally(c.stats, k) + Successes(env, c.attempts, refs, k)
  {
    if !c.crashed {
      FetchAllAttempts(c, refs, env);
      FetchAllCrashes(c, refs, env);
      forall k ensures Tally(FetchAll(c, refs, env).stats, k) == Tally(c.stats, k) + Successes(env, c.attempts, refs, k) {
        FetchAllCounts(c, refs, env, k);
      }
    }
  }

  /** Fetching never lowers a counter and keeps the total equal to the sum
      of the kind counters. */
  lemma FetchAllGrows(c: CrawlState, refs: seq<MediaRef>, env: Env)
    ensures Grows(c.stats, FetchAll(c, refs, env).stats)
    ensures Consistent(c.stats) ==> Consistent(FetchAll(c, refs, env).stats)
  {
    FetchAllTotal(c, refs, env);
    if !c.crashed {
      FetchAllCounts(c, refs, env, Image);
      FetchAllCounts(c, refs, env, Gif);
      FetchAllCounts(c, refs, env, Video);
    }
  }

  /** Fetching `a + b` is fetching `a`, then `b` from where `a` left off. */
  lemma {:induction false} FetchAllAppend(c: CrawlState, a: seq<MediaRef>, b: seq<MediaRef>, env: Env)
    ensures FetchAll(c, a + b, env) == FetchAll(FetchAll(c, a, env), b, env)
    decreases |a|
  {
    if |a| == 0 {
      assert a + b == b;
    } else if !c.crashed {
      assert (a + b)[0] == a[0];
      assert (a + b)[1..] == a[1..] + b;
      FetchAllAppend(FetchRef(c, a[0], env), a[1..], b, env);
    }
  }

  /** The references of every post of a page, one post after the other. */
  function PageRefs(posts: seq<Post>): seq<MediaRef> {
    if |posts| == 0 then [] else Refs(posts[0]) + PageRefs(posts[1..])
  }

  /** Process the posts of one page in order. */
  function ProcessPosts(c: CrawlState, posts: seq<Post>, env: Env): (c': CrawlState)
    ensures c'.after == c.after && c'.empty == c.empty
    ensures Grows(c.stats, c'.stats)
    ensures Consistent(c.stats) ==> Consistent(c'.stats)
    decreases |posts|
  {
    if |posts| == 0 then c
    else
      FetchAllGrows(c, Refs(posts[0]), env);
      ProcessPosts(FetchAll(c, Refs(posts[0]), env), posts[1..], env)
  }

  /** Processing the posts of a page is fetching the page's references,
      one post after the other. */
  lemma {:induction false} ProcessPostsFetchesPageRefs(c: CrawlState, posts: seq<Post>, env: Env)
    ensures ProcessPosts(c, posts, env) == FetchAll(c, PageRefs(posts), env)
    decreases |posts|
  {
    if |posts| > 0 {
      FetchAllAppend(c, Refs(posts[0]), PageRefs(posts[1..]), env);
      ProcessPostsFetchesPageRefs(FetchAll(c, Refs(posts[0]), env), posts[1..], env);
    }
  }

  /** Processing a page from a state that has not crashed makes one
      attempt per reference of its posts up to a crash, and each kind
      counter grows by the counted attempts of that kind over all of them. */
  lemma ProcessPostsTallies(c: CrawlState, posts: seq<Post>, env: Env)
    requires !c.crashed
    ensures var c' := ProcessPosts(c, posts, env);
      && c'.attempts == c.attempts + Attempted(env, c.attempts, PageRefs(posts))
      && (c'.crashed <==> CrashesIn(env, c.attempts, PageRefs(posts)))
      && forall k :: Tally(c'.stats, k) == Tally(c.stats, k) + Successes(env, c.attempts, PageRefs(posts), k)
  {
    ProcessPostsFetchesPageRefs(c, posts, env);
    FetchAllTallies(c, PageRefs(posts), env);
  }

  lemma ProcessOnePost(c: CrawlState, p: Post, env: Env)
    ensures ProcessPosts(c, [p], env) == FetchAll(c, Refs(p), env)
  {
    assert [p][1..] == [];
    assert FetchAll(FetchAll(c, Refs(p), env), [], env) == FetchAll(c, Refs(p), env);
  }

  lemma FetchOne(c: CrawlState, r: MediaRef, env: Env)
    ensures !c.crashed ==> FetchAll(c, [r], env) == FetchRef(c, r, env)
  {
    assert [r][1..] == [];
  }

  /** There is no deduplication: a post seen twice on a page is fetched
      twice. */
  lemma NoDeduplication(c: CrawlState, p: Post, env: Env)
    ensures ProcessPosts(c, [p, p], env) == FetchAll(c, Refs(p) + Refs(p), env)
  {
    ProcessPostsFetchesPageRefs(c, [p, p], env);
    assert PageRefs([p, p]) == Refs(p) + Refs(p) by {
      assert [p, p][1..] == [p];
      assert [p][1..] == [];
      assert PageRefs([p]) == Refs(p) + [];
      assert Refs(p) + [] == Refs(p);
    }
  }

  /** A video is counted whatever the extractor's exit code; only a raise
      prevents the count. */
  lemma VideoCountedOnAnyExit(c: CrawlState, url: string, env: Env)
    ensures env.extract(c.attempts, url).Exited? ==>
      FetchRef(c, MediaRef(Video, url), env).stats == Count(c.stats, Video)
    ensures env.extract(c.attempts, url).ExtractRaised? ==>
      FetchRef(c, MediaRef(Video, url), env).stats == c.stats
  {
  }

  /** A download of an image or gif that raises removes whatever file has
      the same name in its directory, even one an earlier reference wrote
      and counted; the counters keep that earlier file. */
  lemma RaisingFetchRemovesSameNamedFile(c: CrawlState, r: MediaRef, env: Env)
    requires r.kind != Video && !NamesDirectory(OutPath(r).name)
    requires RaisesInside(env.fetch(c.attempts, r.url), IMAGE_PREFIX)
    ensures OutPath(r) !in FetchRef(c, r, env).files
    ensures FetchRef(c, r, env).stats == c.stats
  {
  }

  /** An image or gif whose output path is a directory is never counted;
      unless its headers are rejected, it crashes the run, and the files
      stay as they were. */
  lemma DirectoryNameCrashes(c: CrawlState, r: MediaRef, env: Env)
    requires r.kind != Video && NamesDirectory(OutPath(r).name)
    ensures FetchRef(c, r, env).stats == c.stats
    ensures FetchRef(c, r, env).files == c.files
    ensures FetchRef(c, r, env).crashed <==> c.crashed || !HeadersRejected(env.fetch(c.attempts, r.url), IMAGE_PREFIX)
  {
  }

  // ---------------------------------------------------------------------
  // The listing
  // ---------------------------------------------------------------------

  /** One answer of the listing endpoint: a status with the decoded post
      list and next cursor, or a request that raised. */
  datatype FeedResponse = Page(status: int, posts: seq<Post>, after: Option<string>) | TransportError

  /** Python truthiness of the `after` cursor. */
  predicate Truthy(o: Option<string>) {
    o.Some? && o.value != ""
  }

  /** The query of a listing request: the page size, and the cursor when
      it is truthy. */
  function Params(c: CrawlState): (q: map<string, string>)
    ensures "limit" in q && q["limit"] == Show(PAGE_SIZE)
    ensures "after" in q <==> Truthy(c.after)
    ensures Truthy(c.after) ==> q["after"] == c.after.value
  {
    var q := map["limit" := Show(PAGE_SIZE)];
    if Truthy(c.after) then q["after" := c.after.value] else q
  }

  /** Why the walk ended. `FeedRaised` and `DownloadRaised` are uncaught
      exceptions, from a listing request and from `download_binary`;
      `FeedExhausted` means the given responses ran out first. */
  datatype Exit = NotOk | NoCursor | EmptyLimit | FeedRaised | DownloadRaised | FeedExhausted

  datatype StepResult = Next(state: CrawlState) | Stop(state: CrawlState, exit: Exit)

  predicate IsEmptyPage(resp: FeedResponse) {
    resp.Page? && resp.status == HTTP_OK && |resp.posts| == 0
  }

  /** A 200 response with at least one post. */
  predicate IsFullPage(resp: FeedResponse) {
    resp.Page? && resp.status == HTTP_OK && |resp.posts| > 0
  }

  /** One iteration of the loop body, consuming one response. A page with
      posts has all of them fetched, up to a crash, before the cursor is
      read. */
  function Step(c: CrawlState, resp: FeedResponse, env: Env): (r: StepResult)
    ensures resp.TransportError? ==> r == Stop(c, FeedRaised)
    ensures resp.Page? && resp.status != HTTP_OK ==> r == Stop(c, NotOk)
    ensures IsEmptyPage(resp) ==>
      r.Next? && r.state.after == c.after && r.state.stats == c.stats
      && r.state.empty == c.empty + 1 && r.state.files == c.files
      && r.state.crashed == c.crashed && r.state.attempts == c.attempts
    ensures IsFullPage(resp) ==>
      && r.state.empty == 0
      && (r.state.crashed ==> r == Stop(r.state, DownloadRaised))
      && (!r.state.crashed ==> r.state.after == resp.after)
      && (!r.state.crashed ==> (r.Stop? <==> !Truthy(resp.after)))
      && (!r.state.crashed && r.Stop? ==> r.exit == NoCursor)
    ensures Grows(c.stats, r.state.stats)
    ensures Consistent(c.stats) ==> Consistent(r.state.stats)
  {
    match resp
    case TransportError => Stop(c, FeedRaised)
    case Page(status, posts, after) =>
      if status != HTTP_OK then Stop(c, NotOk)
      else if |posts| == 0 then Next(c.(empty := c.empty + 1))
      else
        var c' := ProcessPosts(c.(empty := 0), posts, env);
        if c'.crashed then Stop(c', DownloadRaised)
        else if Truthy(after) then Next(c'.(after := after))
        else Stop(c'.(after := after), NoCursor)
  }

  /** A page with posts is processed in full before the loop decides
      whether to go on: every post's references are attempted, up to the
      one that crashes the run, and each kind counter grows by the
      counted attempts of that kind, whether the step goes on or stops. */
  lemma StepProcessesPage(c: CrawlState, resp: FeedResponse, env: Env)
    requires IsFullPage(resp) && !c.crashed
    ensures var r := Step(c, resp, env);
      && r.state.attempts == c.attempts + Attempted(env, c.attempts, PageRefs(resp.posts))
      && (r.state.crashed <==> CrashesIn(env, c.attempts, PageRefs(resp.posts)))
      && forall k :: Tally(r.state.stats, k) == Tally(c.stats, k) + Successes(env, c.attempts, PageRefs(resp.posts), k)
  {
    var c0 := c.(empty := 0);
    assert c0.attempts == c.attempts && c0.stats == c.stats && !c0.crashed;
    var c' := ProcessPosts(c0, resp.posts, env);
    ProcessPostsTallies(c0, resp.posts, env);
    assert Step(c, resp, env).state == c' || Step(c, resp, env).state == c'.(after := resp.after);
  }

  /** An empty page re-requests the same cursor. */
  lemma EmptyPageRepeatsRequest(c: CrawlState, resp: FeedResponse, env: Env)
    requires IsEmptyPage(resp)
    ensures Params(Step(c, resp, env).state) == Params(c)
  {
  }

  datatype WalkEnd = WalkEnd(state: CrawlState, exit: Exit, consumed: nat)

  /** A response that lets the loop go on. */
  predicate Continues(resp: FeedResponse) {
    resp.Page? && resp.status == HTTP_OK && (|resp.posts| == 0 || Truthy(resp.after))
  }

  /** The response that ended the walk explains its exit. */
  predicate ExplainsExit(resp: FeedResponse, e: Exit) {
    match e
    case NotOk => resp.Page? && resp.status != HTTP_OK
    case FeedRaised => resp.TransportError?
    case NoCursor => IsFullPage(resp) && !Truthy(resp.after)
    case DownloadRaised => IsFullPage(resp)
    case _ => true
  }

  /** The loop body of a run with network and extractor `env`. */
  function StepOf(env: Env): (CrawlState, FeedResponse) -> StepResult {
    (c, resp) => Step(c, resp, env)
  }

  /** `while empty < 3:` over the responses, in request order, with `step`
      as the loop body. */
  function WalkBy(step: (CrawlState, FeedResponse) -> StepResult, c: CrawlState, feed: seq<FeedResponse>): (w: WalkEnd)
    ensures w.consumed <= |feed|
    decreases |feed|
  {
    if c.empty >= EMPTY_PAGE_LIMIT then WalkEnd(c, EmptyLimit, 0)
    else if |feed| == 0 then WalkEnd(c, FeedExhausted, 0)
    else
      match step(c, feed[0])
      case Stop(c', e) => WalkEnd(c', e, 1)
      case Next(c') =>
        var w := WalkBy(step, c', feed[1..]);
        w.(consumed := w.consumed + 1)
  }

  /** What the loop relies on from its body at state `c` and response
      `resp`: it goes on only after a page that lets it, resetting or
      raising the empty-page counter; it stops for a reason the response
      gives; an empty page only raises the counter; and the counters never
      go down. */
  predicate BodyAt(step: (CrawlState, FeedResponse) -> StepResult, c: CrawlState, resp: FeedResponse) {
    var r := step(c, resp);
    && (r.Next? ==> Continues(resp) && r.state.empty == if IsEmptyPage(resp) then c.empty + 1 else 0)
    && (r.Stop? ==> ExplainsExit(resp, r.exit) && r.exit != EmptyLimit && r.exit != FeedExhausted)
    && (IsEmptyPage(resp) ==> r == Next(c.(empty := c.empty + 1)))
    && Grows(c.stats, r.state.stats)
    && (Consistent(c.stats) ==> Consistent(r.state.stats))
  }

  ghost predicate IsLoopBody(step: (CrawlState, FeedResponse) -> StepResult) {
    forall c, resp :: BodyAt(step, c, resp)
  }

  /** `Step` is such a loop body. */
  lemma StepIsLoopBody(env: Env)
    ensures IsLoopBody(StepOf(env))
  {
    forall c, resp ensures BodyAt(StepOf(env), c, resp) {
      var r := Step(c, resp, env);
      assert StepOf(env)(c, resp) == r;
      if IsEmptyPage(resp) {
        assert r == Next(c.(empty := c.empty + 1));
      }
    }
  }

  /** The walk's end, for any loop body: it consumed at most the given
      responses, all of them when it ran out, at least one unless it ran
      out or hit the limit at once; and no counter went down. */
  lemma {:induction false} WalkByEnds(step: (CrawlState, FeedResponse) -> StepResult, c: CrawlState, feed: seq<FeedResponse>)
    requires IsLoopBody(step)
    ensures var w := WalkBy(step, c, feed);
      && (w.exit == FeedExhausted ==> w.consumed == |feed|)
      && (w.exit == EmptyLimit ==> w.state.empty >= EMPTY_PAGE_LIMIT)
      && (w.exit != EmptyLimit && w.exit != FeedExhausted ==> w.consumed > 0)
      && Grows(c.stats, w.state.stats)
      && (Consistent(c.stats) ==> Consistent(w.state.stats))
    decreases |feed|
  {
    if c.empty < EMPTY_PAGE_LIMIT && |feed| > 0 {
      assert BodyAt(step, c, feed[0]);
      match step(c, feed[0])
      case Stop(_, _) =>
      case Next(c') =>
        WalkByEnds(step, c', feed[1..]);
    }
  }

  /** `while empty < 3:` over the responses of the listing, in request
      order. */
  function Walk(c: CrawlState, feed: seq<FeedResponse>, env: Env): (w: WalkEnd)
    ensures w.consumed <= |feed|
    ensures w.exit == FeedExhausted ==> w.consumed == |feed|
    ensures w.exit == EmptyLimit ==> w.state.empty >= EMPTY_PAGE_LIMIT
    ensures w.exit != EmptyLimit && w.exit != FeedExhausted ==> w.consumed > 0
    ensures Grows(c.stats, w.state.stats)
    ensures Consistent(c.stats) ==> Consistent(w.state.stats)
  {
    StepIsLoopBody(env);
    WalkByEnds(StepOf(env), c, feed);
    WalkBy(StepOf(env), c, feed)
  }

  /** Every response the walk consumed before its last one let the loop
      go on, and the last one explains why it stopped. */
  lemma {:induction false} WalkByExitCause(step: (CrawlState, FeedResponse) -> StepResult, c: CrawlState, feed: seq<FeedResponse>)
    requires IsLoopBody(step)
    ensures var w := WalkBy(step, c, feed);
      && (forall j :: 0 <= j < w.consumed - 1 ==> Continues(feed[j]))
      && (w.consumed > 0 ==> ExplainsExit(feed[w.consumed - 1], w.exit))
    decreases |feed|
  {
    var w := WalkBy(step, c, feed);
    if c.empty < EMPTY_PAGE_LIMIT && |feed| > 0 {
      assert BodyAt(step, c, feed[0]);
      match step(c, feed[0])
      case Stop(_, _) =>
      case Next(c') =>
        WalkByExitCause(step, c', feed[1..]);
        var w' := WalkBy(step, c', feed[1..]);
        assert w == w'.(consumed := w'.consumed + 1);
        forall j | 0 <= j < w.consumed - 1 ensures Continues(feed[j]) {
          if j > 0 { assert feed[j] == feed[1..][j - 1]; }
        }
        if w'.consumed > 0 {
          assert feed[w.consumed - 1] == feed[1..][w'.consumed - 1];
        }
    }
  }

  lemma WalkExitCause(c: CrawlState, feed: seq<FeedResponse>, env: Env)
    ensures var w := Walk(c, feed, env);
      && (forall j :: 0 <= j < w.consumed - 1 ==> Continues(feed[j]))
      && (w.consumed > 0 ==> ExplainsExit(feed[w.consumed - 1], w.exit))
  {
    StepIsLoopBody(env);
    WalkByExitCause(StepOf(env), c, feed);
  }

  /** A walk that ended on its own is decided by the responses it consumed:
      more responses after them change nothing. */
  lemma {:induction false} WalkByIgnoresLaterResponses(step: (CrawlState, FeedResponse) -> StepResult, c: CrawlState, feed: seq<FeedResponse>, more: seq<FeedResponse>)
    requires WalkBy(step, c, feed).exit != FeedExhausted
    ensures WalkBy(step, c, feed + more) == WalkBy(step, c, feed)
    decreases |feed|
  {
    if c.empty < EMPTY_PAGE_LIMIT && |feed| > 0 {
      var all := feed + more;
      assert all[0] == feed[0];
      match step(c, feed[0])
      case Stop(_, _) =>
      case Next(c') =>
        assert all[1..] == feed[1..] + more;
        WalkByIgnoresLaterResponses(step, c', feed[1..], more);
    }
  }

  lemma WalkIgnoresLaterResponses(c: CrawlState, feed: seq<FeedResponse>, more: seq<FeedResponse>, env: Env)
    requires Walk(c, feed, env).exit != FeedExhausted
    ensures Walk(c, feed + more, env) == Walk(c, feed, env)
  {
    WalkByIgnoresLaterResponses(StepOf(env), c, feed, more);
  }

  /** Once the first response stops the loop, the walk ends there. */
  lemma WalkAfterStop(c: CrawlState, feed: seq<FeedResponse>, env: Env)
    requires c.empty < EMPTY_PAGE_LIMIT && |feed| > 0 && Step(c, feed[0], env).Stop?
    ensures var st := Step(c, feed[0], env);
      Walk(c, feed, env) == WalkEnd(st.state, st.exit, 1)
  {
    assert StepOf(env)(c, feed[0]) == Step(c, feed[0], env);
  }

  /** A non-200 answer to the first request ends the walk at once, with the
      state as it was. */
  lemma WalkStopsOnError(c: CrawlState, feed: seq<FeedResponse>, env: Env)
    requires c.empty < EMPTY_PAGE_LIMIT
    requires |feed| > 0 && feed[0].Page? && feed[0].status != HTTP_OK
    ensures Walk(c, feed, env) == WalkEnd(c, NotOk, 1)
  {
    WalkAfterStop(c, feed, env);
  }

  /** Empty pages, as many as the counter still allows, end the walk with
      the cursor and the statistics untouched. */
  lemma {:induction false} WalkByStopsAfterEmptyPages(step: (CrawlState, FeedResponse) -> StepResult, c: CrawlState, feed: seq<FeedResponse>)
    requires IsLoopBody(step)
    requires c.empty < EMPTY_PAGE_LIMIT
    requires |feed| >= EMPTY_PAGE_LIMIT - c.empty
    requires forall j :: 0 <= j < EMPTY_PAGE_LIMIT - c.empty ==> IsEmptyPage(feed[j])
    ensures WalkBy(step, c, feed) == WalkEnd(c.(empty := EMPTY_PAGE_LIMIT), EmptyLimit, EMPTY_PAGE_LIMIT - c.empty)
    decreases EMPTY_PAGE_LIMIT - c.empty
  {
    var c' := c.(empty := c.empty + 1);
    assert BodyAt(step, c, feed[0]);
    assert step(c, feed[0]) == Next(c');
    if c'.empty < EMPTY_PAGE_LIMIT {
      WalkByStopsAfterEmptyPages(step, c', feed[1..]);
    }
  }

  lemma WalkStopsAfterEmptyPages(c: CrawlState, feed: seq<FeedResponse>, env: Env)
    requires c.empty < EMPTY_PAGE_LIMIT
    requires |feed| >= EMPTY_PAGE_LIMIT - c.empty
    requires forall j :: 0 <= j < EMPTY_PAGE_LIMIT - c.empty ==> IsEmptyPage(feed[j])
    ensures Walk(c, feed, env) == WalkEnd(c.(empty := EMPTY_PAGE_LIMIT), EmptyLimit, EMPTY_PAGE_LIMIT - c.empty)
  {
    StepIsLoopBody(env);
    WalkByStopsAfterEmptyPages(StepOf(env), c, feed);
  }

  /** The walk stops for the empty-page limit only right after empty
      pages: the last three it consumed, or all of them when it started
      with the counter already raised and consumed fewer. */
  lemma {:induction false} WalkByEmptyLimitFollowsEmptyPages(step: (CrawlState, FeedResponse) -> StepResult, c: CrawlState, feed: seq<FeedResponse>)
    requires IsLoopBody(step)
    requires c.empty < EMPTY_PAGE_LIMIT
    ensures var w := WalkBy(step, c, feed);
      w.exit == EmptyLimit ==>
        && w.consumed >= EMPTY_PAGE_LIMIT - c.empty
        && forall j :: w.consumed - EMPTY_PAGE_LIMIT <= j < w.consumed && 0 <= j ==> IsEmptyPage(feed[j])
    decreases |feed|
  {
    var w := WalkBy(step, c, feed);
    if |feed| > 0 && w.exit == EmptyLimit {
      assert BodyAt(step, c, feed[0]);
      match step(c, feed[0])
      case Stop(_, _) =>
      case Next(c') =>
        var w' := WalkBy(step, c', feed[1..]);
        assert w == w'.(consumed := w'.consumed + 1);
        if c'.empty < EMPTY_PAGE_LIMIT {
          WalkByEmptyLimitFollowsEmptyPages(step, c', feed[1..]);
        }
        forall j | w.consumed - EMPTY_PAGE_LIMIT <= j < w.consumed && 0 <= j
          ensures IsEmptyPage(feed[j])
        {
          if j > 0 {
            assert feed[j] == feed[1..][j - 1];
          }
        }
    }
  }

  lemma EmptyLimitFollowsEmptyPages(c: CrawlState, feed: seq<FeedResponse>, env: Env)
    requires c.empty < EMPTY_PAGE_LIMIT
    ensures var w := Walk(c, feed, env);
      w.exit == EmptyLimit ==>
        && w.consumed >= EMPTY_PAGE_LIMIT - c.empty
        && forall j :: w.consumed - EMPTY_PAGE_LIMIT <= j < w.consumed && 0 <= j ==> IsEmptyPage(feed[j])
  {
    StepIsLoopBody(env);
    WalkByEmptyLimitFollowsEmptyPages(StepOf(env), c, feed);
  }

  // ---------------------------------------------------------------------
  // The run and the exit code
  // ---------------------------------------------------------------------

  /** How a run of the scraper ends: with the stats written and returned,
      with an uncaught exception (no stats file), or undecided because the
      given responses ran out. */
  datatype RunOutcome = Finished(stats: Stats) | Crashed | Incomplete

  /** The state before the first request; `files` is what the job's media
      directories already hold. */
  function Initial(files: map<Path, nat>): CrawlState {
    CrawlState(None, 0, NoStats, 0, files, false)
  }

  /** `scrape(subreddit, job_id)` over the responses `feed`. */
  function Scrape(files: map<Path, nat>, feed: seq<FeedResponse>, env: Env): (r: RunOutcome)
    ensures r.Finished? ==> Consistent(r.stats)
    ensures r.Crashed? <==>
      Walk(Initial(files), feed, env).exit == FeedRaised || Walk(Initial(files), feed, env).exit == DownloadRaised
  {
    var w := Walk(Initial(files), feed, env);
    if w.exit == FeedRaised || w.exit == DownloadRaised then Crashed
    else if w.exit == FeedExhausted then Incomplete
    else Finished(w.state.stats)
  }

  /** A walk that stopped on a response or on the empty-page limit
      finishes the run with the statistics the walk collected. */
  lemma ScrapeFinishes(files: map<Path, nat>, feed: seq<FeedResponse>, env: Env)
    requires Walk(Initial(files), feed, env).exit != FeedRaised
    requires Walk(Initial(files), feed, env).exit != DownloadRaised
    requires Walk(Initial(files), feed, env).exit != FeedExhausted
    ensures Scrape(files, feed, env) == Finished(Walk(Initial(files), feed, env).state.stats)
  {
  }

  /** The process exit code: `sys.exit(0 if ok else 1)`, and 1 for the
      traceback of an uncaught exception. */
  function ExitCode(r: RunOutcome): (code: int)
    requires !r.Incomplete?
    ensures code == 0 || code == 1
    ensures code == 0 <==> r.Finished? && r.stats.filesDownloaded > 0
  {
    match r
    case Finished(stats) => if Success(stats) then 0 else 1
    case Crashed => 1
  }

  /** The scraper exits with 0 exactly when it finished having counted at
      least one image, gif or video. */
  lemma ExitCodeOfScrape(files: map<Path, nat>, feed: seq<FeedResponse>, env: Env)
    requires !Scrape(files, feed, env).Incomplete?
    ensures var r := Scrape(files, feed, env);
      ExitCode(r) == 0 <==> r.Finished? && r.stats.images + r.stats.gifs + r.stats.videos > 0
  {
  }
}

=== FILE: html.dfy ===
/** The HTML character references that occur in the URLs of a Reddit
    listing, and the two directions of their translation. */
module Html {
  import opened Text

  /** `html.escape(c)` for one character (quote=True). */
  function EscapeChar(c: char): string {
    if c == '&' then "&amp;"
    else if c == '<' then "&lt;"
    else if c == '>' then "&gt;"
    else if c == '"' then "&quot;"
    else if c == '\'' then "&#x27;"
    else [c]
  }

  /** `html.escape(s)`: how a listing writes a URL into its JSON body. */
  function Escape(s: string): (r: string)
    ensures |r| >= |s|
  {
    if |s| == 0 then "" else EscapeChar(s[0]) + Escape(s[1..])
  }

  /** `html.unescape(s)` for the references `&amp;`, `&lt;`, `&gt;`,
      `&quot;`, `&#39;` and `&#x27;`, scanned once from the left; every other
      character, an `&` that starts none of them included, is kept. */
  function Unescape(s: string): (r: string)
    ensures |r| <= |s|
    ensures '&' !in s ==> r == s
    decreases |s|
  {
    if |s| == 0 then ""
    else if s[0] != '&' then [s[0]] + Unescape(s[1..])
    else if StartsWith(s, "&amp;") then "&" + Unescape(s[5..])
    else if StartsWith(s, "&lt;") then "<" + Unescape(s[4..])
    else if StartsWith(s, "&gt;") then ">" + Unescape(s[4..])
    else if StartsWith(s, "&quot;") then "\"" + Unescape(s[6..])
    else if StartsWith(s, "&#39;") then "'" + Unescape(s[5..])
    else if StartsWith(s, "&#x27;") then "'" + Unescape(s[6..])
    else [s[0]] + Unescape(s[1..])
  }

  /** Unescaping the escape of one character followed by anything gives
      back that character followed by the unescaped rest. */
  lemma UnescapeAfterEscapeChar(c: char, rest: string)
    ensures Unescape(EscapeChar(c) + rest) == [c] + Unescape(rest)
  {
    if c == '&' {
      UnescapeAmpersand(rest);
    } else if c == '<' {
      UnescapeLessThan(rest);
    } else if c == '>' {
      UnescapeGreaterThan(rest);
    } else if c == '"' {
      UnescapeQuote(rest);
    } else if c == '\'' {
      UnescapeApostrophe(rest);
    } else {
      var t := [c] + rest;
      assert t[0] == c && t[1..] == rest;
    }
  }

  lemma UnescapeAmpersand(rest: string)
    ensures Unescape("&amp;" + rest) == "&" + Unescape(rest)
  {
    var t := "&amp;" + rest;
    assert StartsWith(t, "&amp;") && t[5..] == rest;
  }

  lemma UnescapeLessThan(rest: string)
    ensures Unescape("&lt;" + rest) == "<" + Unescape(rest)
  {
    var t := "&lt;" + rest;
    assert t[1] == 'l';
    assert StartsWith(t, "&lt;") && t[4..] == rest;
  }

  lemma UnescapeGreaterThan(rest: string)
    ensures Unescape("&gt;" + rest) == ">" + Unescape(rest)
  {
    var t := "&gt;" + rest;
    assert t[1] == 'g';
    assert StartsWith(t, "&gt;") && t[4..] == rest;
  }

  lemma UnescapeQuote(rest: string)
    ensures Unescape("&quot;" + rest) == "\"" + Unescape(rest)
  {
    var t := "&quot;" + rest;
    assert t[1] == 'q';
    assert !StartsWith(t, "&amp;") && !StartsWith(t, "&lt;") && !StartsWith(t, "&gt;");
    assert StartsWith(t, "&quot;") && t[6..] == rest;
  }

  lemma UnescapeApostrophe(rest: string)
    ensures Unescape("&#x27;" + rest) == "'" + Unescape(rest)
  {
    var t := "&#x27;" + rest;
    assert t[1] == '#' && t[2] == 'x';
    assert !StartsWith(t, "&amp;") && !StartsWith(t, "&lt;") && !StartsWith(t, "&gt;");
    assert !StartsWith(t, "&quot;") && !StartsWith(t, "&#39;");
    assert StartsWith(t, "&#x27;") && t[6..] == rest;
  }

  /** Unescaping undoes escaping, for every string. */
  lemma {:induction false} UnescapeEscape(s: string)
    ensures Unescape(Escape(s)) == s
  {
    if |s| > 0 {
      calc {
        Unescape(Escape(s));
        Unescape(EscapeChar(s[0]) + Escape(s[1..]));
        { UnescapeAfterEscapeChar(s[0], Escape(s[1..])); }
        [s[0]] + Unescape(Escape(s[1..]));
        { UnescapeEscape(s[1..]); }
        [s[0]] + s[1..];
        s;
      }
    }
  }

  /** Escaping introduces no character other than `&`, `#`, `;`, digits,
      `x` and letters of the entity names: in particular no '?'. */
  lemma {:induction false} EscapeKeepsOutQuestionMark(s: string)
    requires '?' !in s
    ensures '?' !in Escape(s)
  {
    if |s| > 0 {
      EscapeKeepsOutQuestionMark(s[1..]);
    }
  }
}

=== FILE: jobs.dfy ===
/** One pass of the job runner's polling loop: which directory entries are
    jobs, the order they are taken in, which of them are skipped, and the
    status records written around the scraper's run. */
module JobRunner {
  import opened Base
  import opened Text
  import Crawl

  const JOB_PREFIX: string := "job_"
  const JOB_SUFFIX: string := ".json"

  const RUNNING: string := "running"
  const COMPLETED: string := "completed"
  const FAILED: string := "failed"

  /** The fixed message of every failed record. */
  const NO_MEDIA_ERROR: string := "No valid media downloaded"

  // ---------------------------------------------------------------------
  // Job files and their order
  // ---------------------------------------------------------------------

  predicate IsJobFile(name: string) {
    StartsWith(name, JOB_PREFIX) && EndsWith(name, JOB_SUFFIX)
  }

  /** The job files of a listing, in listing order. */
  function JobEntries(listing: seq<string>): (r: seq<string>)
    ensures forall n :: multiset(r)[n] == if IsJobFile(n) then multiset(listing)[n] else 0
  {
    if |listing| == 0 then []
    else
      assert listing == [listing[0]] + listing[1..];
      (if IsJobFile(listing[0]) then [listing[0]] else []) + JobEntries(listing[1..])
  }

  /** Python's order on `str`: lexicographic by code point, a proper
      prefix first. */
  predicate LexLe(a: string, b: string)
    decreases |a|
  {
    |a| == 0 || (|b| > 0 && (a[0] < b[0] || (a[0] == b[0] && LexLe(a[1..], b[1..]))))
  }

  lemma {:induction false} LexLeTotal(a: string, b: string)
    ensures LexLe(a, b) || LexLe(b, a)
    decreases |a|
  {
    if |a| > 0 && |b| > 0 && a[0] == b[0] {
      LexLeTotal(a[1..], b[1..]);
    }
  }

  lemma {:induction false} LexLeTrans(a: string, b: string, c: string)
    requires LexLe(a, b) && LexLe(b, c)
    ensures LexLe(a, c)
    decreases |a|
  {
    if |a| > 0 && a[0] == b[0] && b[0] == c[0] {
      LexLeTrans(a[1..], b[1..], c[1..]);
    }
  }

  predicate Sorted(s: seq<string>) {
    forall i, j :: 0 <= i < j < |s| ==> LexLe(s[i], s[j])
  }

  /** `x` placed into the sorted `s` before the first element it does not
      exceed. */
  function Insert(x: string, s: seq<string>): (r: seq<string>)
    requires Sorted(s)
    ensures Sorted(r)
    ensures multiset(r) == multiset(s) + multiset{x}
    decreases |s|
  {
    if |s| == 0 then [x]
    else if LexLe(x, s[0]) then
      LowerBoundSorted(x, s);
      [x] + s
    else
      LexLeTotal(x, s[0]);
      var t := Insert(x, s[1..]);
      HeadBoundsInsert(x, s, t);
      [s[0]] + t
  }

  /** A lower bound of the head of a sorted sequence bounds all of it, and
      prepending it keeps the sequence sorted. */
  lemma LowerBoundSorted(x: string, s: seq<string>)
    requires Sorted(s) && |s| > 0 && LexLe(x, s[0])
    ensures Sorted([x] + s)
  {
    forall j | 0 <= j < |s| ensures LexLe(x, s[j]) {
      if j > 0 { LexLeTrans(x, s[0], s[j]); }
    }
  }

  /** The head of a sorted `s` still leads once `x`, which it does not
      exceed, is inserted into the tail. */
  lemma HeadBoundsInsert(x: string, s: seq<string>, t: seq<string>)
    requires Sorted(s) && |s| > 0 && LexLe(s[0], x)
    requires Sorted(t) && multiset(t) == multiset(s[1..]) + multiset{x}
    ensures Sorted([s[0]] + t)
    ensures multiset([s[0]] + t) == multiset(s) + multiset{x}
  {
    assert s == [s[0]] + s[1..];
    forall y | y in t ensures LexLe(s[0], y) {
      assert y in multiset(t);
      if y != x {
        assert y in multiset(s[1..]);
        var k :| 0 <= k < |s[1..]| && s[1..][k] == y;
        assert s[k + 1] == y;
      }
    }
    var r := [s[0]] + t;
    forall i, j | 0 <= i < j < |r| ensures LexLe(r[i], r[j]) {
      if i > 0 { assert r[i] == t[i - 1] && r[j] == t[j - 1]; }
      else { assert r[j] == t[j - 1] && r[j] in t; }
    }
  }

  /** `sorted(names)`. */
  function Sort(s: seq<string>): (r: seq<string>)
    ensures Sorted(r)
    ensures multiset(r) == multiset(s)
  {
    if |s| == 0 then []
    else
      assert s == [s[0]] + s[1..];
      Insert(s[0], Sort(s[1..]))
  }

  /** The job files of a listing, in the order the runner takes them:
      sorted, and exactly the entries named `job_*.json`. */
  function JobFiles(listing: seq<string>): (r: seq<string>)
    ensures Sorted(r)
    ensures forall n :: n in r <==> n in listing && IsJobFile(n)
    ensures forall n :: multiset(r)[n] == if IsJobFile(n) then multiset(listing)[n] else 0
  {
    var r := Sort(JobEntries(listing));
    assert forall n :: n in r <==> n in multiset(r);
    r
  }

  // ---------------------------------------------------------------------
  // Job ids
  // ---------------------------------------------------------------------

  /** `jf.replace(".json", "")`: every occurrence goes, not only the
      suffix. */
  function JobId(name: string): (id: string)
    ensures |id| <= |name|
    ensures id == name <==> !Contains(name, JOB_SUFFIX)
  {
    assert !Contains(name, JOB_SUFFIX) ==> RemoveAll(name, JOB_SUFFIX) == name by {
      if !Contains(name, JOB_SUFFIX) {
        RemoveAllAbsent(name, JOB_SUFFIX);
      }
    }
    RemoveAll(name, JOB_SUFFIX)
  }

  /** An occurrence of ".json" after a stem that holds none is removed,
      and the stem is kept. */
  lemma {:induction false} JobIdAfterStem(stem: string, rest: string)
    requires !Contains(stem, JOB_SUFFIX)
    ensures JobId(stem + JOB_SUFFIX + rest) == stem + JobId(rest)
    decreases |stem|
  {
    var s := stem + JOB_SUFFIX + rest;
    if |stem| == 0 {
      assert StartsWith(s, JOB_SUFFIX) && s[5..] == rest;
    } else {
      assert !StartsWith(s, JOB_SUFFIX) by {
        if |stem| >= 5 {
          assert s[..5] == stem[..5];
        } else {
          assert s[|stem|] == '.';
          assert JOB_SUFFIX[|stem|] != '.';
        }
      }
      assert s[1..] == stem[1..] + JOB_SUFFIX + rest;
      JobIdAfterStem(stem[1..], rest);
      assert [stem[0]] + stem[1..] == stem;
    }
  }

  /** For a name whose stem holds no ".json", the id is the stem. */
  lemma JobIdOfPlainName(stem: string)
    requires !Contains(stem, JOB_SUFFIX)
    ensures JobId(stem + JOB_SUFFIX) == stem
  {
    JobIdAfterStem(stem, "");
    assert stem + JOB_SUFFIX + "" == stem + JOB_SUFFIX;
  }

  /** Every ".json" goes: a stem followed by the suffix twice has the
      same id as the stem followed by it once, so two job files share it. */
  lemma JobIdDropsRepeatedSuffix(stem: string)
    requires !Contains(stem, JOB_SUFFIX)
    ensures JobId(stem + JOB_SUFFIX + JOB_SUFFIX) == stem
    ensures JobId(stem + JOB_SUFFIX) == stem
  {
    JobIdAfterStem(stem, JOB_SUFFIX);
    JobIdAfterStem("", "");
    assert "" + JOB_SUFFIX + "" == JOB_SUFFIX;
    JobIdOfPlainName(stem);
  }

  // ---------------------------------------------------------------------
  // Status records
  // ---------------------------------------------------------------------

  /** A status file; `stats == None` is the empty object `{}`. The
      `updated_at` timestamp is not modelled. */
  datatype StatusRecord = StatusRecord(jobId: string, state: string, stats: Option<Crawl.Stats>, error: Option<string>)

  /** A state that keeps a job from being dispatched again. */
  predicate Blocks(state: string) {
    state == RUNNING || state == COMPLETED || state == FAILED
  }

  /** The status files, keyed by job id. */
  type Store = map<string, StatusRecord>

  predicate Skipped(store: Store, id: string) {
    id in store && Blocks(store[id].state)
  }

  /** The record written before the scraper starts. */
  function RunningRecord(id: string): (rec: StatusRecord)
    ensures rec.jobId == id && Blocks(rec.state)
  {
    StatusRecord(id, RUNNING, None, None)
  }

  /** The record written when the scraper has returned with exit code
      `code`, `statsFile` being the content of the job's stats file when it
      exists. */
  function Finish(id: string, code: int, statsFile: Option<Crawl.Stats>): (rec: StatusRecord)
    ensures rec.jobId == id
    ensures rec.state == COMPLETED || rec.state == FAILED
    ensures rec.state == COMPLETED <==> code == 0 && statsFile.Some?
    ensures rec.state == COMPLETED ==> rec.stats == statsFile && rec.error == None
    ensures rec.state == FAILED ==> rec.stats == None && rec.error == Some(NO_MEDIA_ERROR)
  {
    if code == 0 && statsFile.Some? then StatusRecord(id, COMPLETED, statsFile, None)
    else StatusRecord(id, FAILED, None, Some(NO_MEDIA_ERROR))
  }

  // ---------------------------------------------------------------------
  // One pass
  // ---------------------------------------------------------------------

  /** What running the scraper as a child process did: it returned with
      an exit code (the stats file then holds `statsFile`, when it exists),
      or `subprocess.run` raised. */
  datatype ChildOutcome = ChildReturned(code: int, statsFile: Option<Crawl.Stats>) | ChildRaised

  /** The job files' `target` fields, and the child process as an oracle
      on (target, job id). */
  datatype RunnerEnv = RunnerEnv(target: string -> string, child: (string, string) -> ChildOutcome)

  /** The status files after the pass, the job ids dispatched in order,
      and whether the pass died on a raised child call (the runner then
      stops with that job left "running"). */
  datatype PassResult = PassResult(store: Store, dispatched: seq<string>, aborted: bool)

  /** The job files in order, each skipped or dispatched. A blocked job
      keeps its record and is not dispatched; only dispatched jobs' records
      change, and each of them ends with a blocking state. */
  function RunJobs(jobs: seq<string>, store: Store, env: RunnerEnv): (r: PassResult)
    ensures forall id :: Skipped(store, id) ==> Skipped(r.store, id) && r.store[id] == store[id]
    ensures forall id :: id in r.dispatched ==> Skipped(r.store, id) && !Skipped(store, id)
    ensures forall id :: id in store && id !in r.dispatched ==> id in r.store && r.store[id] == store[id]
    ensures forall id :: id in r.store ==> id in store || id in r.dispatched
    ensures r.aborted ==> |r.dispatched| > 0
    decreases |jobs|
  {
    if |jobs| == 0 then PassResult(store, [], false)
    else
      var id := JobId(jobs[0]);
      if Skipped(store, id) then RunJobs(jobs[1..], store, env)
      else
        var running := store[id := RunningRecord(id)];
        match env.child(env.target(jobs[0]), id)
        case ChildRaised => PassResult(running, [id], true)
        case ChildReturned(code, statsFile) =>
          var rest := RunJobs(jobs[1..], running[id := Finish(id, code, statsFile)], env);
          PassResult(rest.store, [id] + rest.dispatched, rest.aborted)
  }

  /** `id` is the id of one of the job files. */
  predicate Listed(jobs: seq<string>, id: string) {
    exists j :: 0 <= j < |jobs| && JobId(jobs[j]) == id
  }

  predicate NoRepeats(ids: seq<string>) {
    forall i, k :: 0 <= i < k < |ids| ==> ids[i] != ids[k]
  }

  lemma ListedInTail(jobs: seq<string>, id: string)
    requires |jobs| > 0 && Listed(jobs[1..], id)
    ensures Listed(jobs, id)
  {
    var j :| 0 <= j < |jobs[1..]| && JobId(jobs[1..][j]) == id;
    assert jobs[j + 1] == jobs[1..][j];
  }

  /** The skip rule: the first job file is dispatched first exactly when
      its id has no status record in a blocking state. */
  lemma FirstJobSkipRule(jobs: seq<string>, store: Store, env: RunnerEnv)
    requires |jobs| > 0
    ensures var r := RunJobs(jobs, store, env);
      (|r.dispatched| > 0 && r.dispatched[0] == JobId(jobs[0])) <==> !Skipped(store, JobId(jobs[0]))
  {
    var r := RunJobs(jobs, store, env);
    if Skipped(store, JobId(jobs[0])) && |r.dispatched| > 0 {
      assert r.dispatched[0] in r.dispatched;
    }
  }

  /** Every dispatched job id comes from a listed job file, and none is
      dispatched twice. */
  lemma {:induction false} DispatchedOnceEach(jobs: seq<string>, store: Store, env: RunnerEnv)
    ensures forall id :: id in RunJobs(jobs, store, env).dispatched ==> Listed(jobs, id)
    ensures NoRepeats(RunJobs(jobs, store, env).dispatched)
    decreases |jobs|
  {
    if |jobs| > 0 {
      var id := JobId(jobs[0]);
      var r := RunJobs(jobs, store, env);
      assert Listed(jobs, id);
      if Skipped(store, id) {
        DispatchedOnceEach(jobs[1..], store, env);
        forall x | x in r.dispatched ensures Listed(jobs, x) {
          ListedInTail(jobs, x);
        }
      } else {
        var running := store[id := RunningRecord(id)];
        match env.child(env.target(jobs[0]), id)
        case ChildRaised =>
        case ChildReturned(code, statsFile) =>
          var st := running[id := Finish(id, code, statsFile)];
          var rest := RunJobs(jobs[1..], st, env);
          DispatchedOnceEach(jobs[1..], st, env);
          assert Skipped(st, id);
          assert id !in rest.dispatched;
          assert r.dispatched == [id] + rest.dispatched;
          forall x | x in r.dispatched ensures Listed(jobs, x) {
            if x != id {
              ListedInTail(jobs, x);
            }
          }
          forall i, k | 0 <= i < k < |r.dispatched| ensures r.dispatched[i] != r.dispatched[k] {
            assert r.dispatched[k] == rest.dispatched[k - 1];
            if i > 0 {
              assert r.dispatched[i] == rest.dispatched[i - 1];
            } else {
              assert r.dispatched[i] == id;
            }
          }
      }
    }
  }

  /** A pass that did not die leaves every listed job blocked. */
  lemma {:induction false} PassBlocksAll(jobs: seq<string>, store: Store, env: RunnerEnv)
    ensures var r := RunJobs(jobs, store, env);
      !r.aborted ==> forall j :: 0 <= j < |jobs| ==> Skipped(r.store, JobId(jobs[j]))
    decreases |jobs|
  {
    if |jobs| > 0 {
      var id := JobId(jobs[0]);
      var r := RunJobs(jobs, store, env);
      var st := store;
      if !Skipped(store, id) {
        var running := store[id := RunningRecord(id)];
        match env.child(env.target(jobs[0]), id)
        case ChildRaised =>
        case ChildReturned(code, statsFile) =>
          st := running[id := Finish(id, code, statsFile)];
      }
      if !r.aborted {
        assert r == RunJobs(jobs[1..], st, env) || r.dispatched == [id] + RunJobs(jobs[1..], st, env).dispatched;
        assert r.store == RunJobs(jobs[1..], st, env).store;
        assert Skipped(st, id);
        PassBlocksAll(jobs[1..], st, env);
        forall j | 0 <= j < |jobs| ensures Skipped(r.store, JobId(jobs[j])) {
          if j > 0 { assert jobs[j] == jobs[1..][j - 1]; }
        }
      }
    }
  }

  /** A pass that did not die dispatched exactly the listed jobs that were
      not blocked before it. */
  lemma {:induction false} PassDispatchesUnblocked(jobs: seq<string>, store: Store, env: RunnerEnv)
    ensures var r := RunJobs(jobs, store, env);
      !r.aborted ==> forall j :: 0 <= j < |jobs| ==>
        (JobId(jobs[j]) in r.dispatched <==> !Skipped(store, JobId(jobs[j])))
    decreases |jobs|
  {
    if |jobs| > 0 {
      var id := JobId(jobs[0]);
      var r := RunJobs(jobs, store, env);
      if Skipped(store, id) {
        PassDispatchesUnblocked(jobs[1..], store, env);
        if !r.aborted {
          forall j | 0 <= j < |jobs| ensures JobId(jobs[j]) in r.dispatched <==> !Skipped(store, JobId(jobs[j])) {
            if j > 0 { assert jobs[j] == jobs[1..][j - 1]; }
          }
        }
      } else {
        var running := store[id := RunningRecord(id)];
        match env.child(env.target(jobs[0]), id)
        case ChildRaised =>
        case ChildReturned(code, statsFile) =>
          var st := running[id := Finish(id, code, statsFile)];
          var rest := RunJobs(jobs[1..], st, env);
          PassDispatchesUnblocked(jobs[1..], st, env);
          assert r == PassResult(rest.store, [id] + rest.dispatched, rest.aborted);
          if !r.aborted {
            forall j | 0 <= j < |jobs| ensures JobId(jobs[j]) in r.dispatched <==> !Skipped(store, JobId(jobs[j])) {
              var x := JobId(jobs[j]);
              assert x in r.dispatched <==> x == id || x in rest.dispatched;
              if x == id {
                assert x in r.dispatched;
              } else {
                assert jobs[j] == jobs[1..][j - 1];
                assert x in rest.dispatched <==> !Skipped(st, x);
                assert Skipped(st, x) <==> Skipped(store, x);
              }
            }
          }
      }
    }
  }

  /** Each dispatched job's record carries its id and ends "completed" or
      "failed", except that a pass that died leaves the job it died on
      "running". */
  predicate RecordsSettled(r: PassResult) {
    forall i :: 0 <= i < |r.dispatched| ==> SettledAt(r, i)
  }

  predicate SettledAt(r: PassResult, i: nat)
    requires i < |r.dispatched|
  {
    && r.dispatched[i] in r.store
    && r.store[r.dispatched[i]].jobId == r.dispatched[i]
    && if r.aborted && i == |r.dispatched| - 1 then r.store[r.dispatched[i]].state == RUNNING
       else r.store[r.dispatched[i]].state == COMPLETED || r.store[r.dispatched[i]].state == FAILED
  }

  lemma {:induction false} PassRecords(jobs: seq<string>, store: Store, env: RunnerEnv)
    ensures RecordsSettled(RunJobs(jobs, store, env))
    decreases |jobs|
  {
    if |jobs| > 0 {
      var id := JobId(jobs[0]);
      var r := RunJobs(jobs, store, env);
      if Skipped(store, id) {
        PassRecords(jobs[1..], store, env);
      } else {
        var running := store[id := RunningRecord(id)];
        match env.child(env.target(jobs[0]), id)
        case ChildRaised =>
          assert SettledAt(r, 0);
        case ChildReturned(code, statsFile) =>
          var st := running[id := Finish(id, code, statsFile)];
          var rest := RunJobs(jobs[1..], st, env);
          PassRecords(jobs[1..], st, env);
          assert r.dispatched == [id] + rest.dispatched;
          assert Skipped(st, id);
          assert r.store[id] == st[id];
          forall i | 0 <= i < |r.dispatched| ensures SettledAt(r, i) {
            if i > 0 {
              assert r.dispatched[i] == rest.dispatched[i - 1];
              assert SettledAt(rest, i - 1);
            }
          }
      }
    }
  }

  /** When every job is blocked the pass changes nothing. */
  lemma {:induction false} AllBlockedNoDispatch(jobs: seq<string>, store: Store, env: RunnerEnv)
    requires forall j :: 0 <= j < |jobs| ==> Skipped(store, JobId(jobs[j]))
    ensures RunJobs(jobs, store, env) == PassResult(store, [], false)
    decreases |jobs|
  {
    if |jobs| > 0 {
      AllBlockedNoDispatch(jobs[1..], store, env);
    }
  }

  /** The dispatched job at position `j` of `jobs`, the first with its
      id and not blocked before the pass, has its record written from what
      its child returned, unless the pass died. */
  lemma {:induction false} PassRecordsFinish(jobs: seq<string>, store: Store, env: RunnerEnv, j: nat)
    requires j < |jobs|
    requires forall k :: 0 <= k < j ==> JobId(jobs[k]) != JobId(jobs[j])
    requires !Skipped(store, JobId(jobs[j]))
    ensures var r := RunJobs(jobs, store, env);
      var id := JobId(jobs[j]);
      var out := env.child(env.target(jobs[j]), id);
      !r.aborted ==> out.ChildReturned? && id in r.store && r.store[id] == Finish(id, out.code, out.statsFile)
    decreases |jobs|
  {
    var id0 := JobId(jobs[0]);
    var r := RunJobs(jobs, store, env);
    if j == 0 {
      match env.child(env.target(jobs[0]), id0)
      case ChildRaised =>
      case ChildReturned(code, statsFile) =>
        var st := store[id0 := RunningRecord(id0)][id0 := Finish(id0, code, statsFile)];
        assert Skipped(st, id0);
        assert r.store == RunJobs(jobs[1..], st, env).store;
    } else {
      var id := JobId(jobs[j]);
      assert jobs[j] == jobs[1..][j - 1];
      assert id0 != id;
      forall k | 0 <= k < j - 1 ensures JobId(jobs[1..][k]) != JobId(jobs[1..][j - 1]) {
        assert jobs[1..][k] == jobs[k + 1];
      }
      if Skipped(store, id0) {
        PassRecordsFinish(jobs[1..], store, env, j - 1);
      } else {
        match env.child(env.target(jobs[0]), id0)
        case ChildRaised =>
        case ChildReturned(code, statsFile) =>
          var st := store[id0 := RunningRecord(id0)][id0 := Finish(id0, code, statsFile)];
          assert !Skipped(st, id);
          PassRecordsFinish(jobs[1..], st, env, j - 1);
      }
    }
  }

  /** One pass of `main`'s loop over the base directory's listing: every
      dispatched id is the id of a job file of the listing, none twice;
      each dispatched record ends settled; and unless the pass died, the
      dispatched ids are exactly those of the listed job files that were
      not blocked, and every listed job file is blocked afterwards. */
  function Pass(listing: seq<string>, store: Store, env: RunnerEnv): (r: PassResult)
    ensures forall id :: id in r.dispatched ==> exists n :: n in listing && IsJobFile(n) && JobId(n) == id
    ensures NoRepeats(r.dispatched)
    ensures RecordsSettled(r)
    ensures !r.aborted ==> forall n :: n in listing && IsJobFile(n) ==>
      (JobId(n) in r.dispatched <==> !Skipped(store, JobId(n)))
    ensures !r.aborted ==> forall n :: n in listing && IsJobFile(n) ==> Skipped(r.store, JobId(n))
  {
    var jobs := JobFiles(listing);
    DispatchedOnceEach(jobs, store, env);
    PassRecords(jobs, store, env);
    PassBlocksAll(jobs, store, env);
    PassDispatchesUnblocked(jobs, store, env);
    var r := RunJobs(jobs, store, env);
    forall id | id in r.dispatched ensures exists n :: n in listing && IsJobFile(n) && JobId(n) == id {
      var j :| 0 <= j < |jobs| && JobId(jobs[j]) == id;
      assert jobs[j] in jobs;
    }
    forall n | n in listing && IsJobFile(n) ensures exists j :: 0 <= j < |jobs| && jobs[j] == n {
      assert n in jobs;
    }
    r
  }

  /** Scanning again after a pass that did not die dispatches nothing and
      rewrites no record. */
  lemma PassIdempotent(listing: seq<string>, store: Store, env: RunnerEnv)
    requires !Pass(listing, store, env).aborted
    ensures var s := Pass(listing, store, env).store;
      Pass(listing, s, env) == PassResult(s, [], false)
  {
    var r := Pass(listing, store, env);
    PassBlocksAll(JobFiles(listing), store, env);
    AllBlockedNoDispatch(JobFiles(listing), r.store, env);
  }
}

=== FILE: media.dfy ===
/** Validation of a media response by its headers, and the outcome of one
    direct download (`is_valid_media` and `download_binary`). */
module Media {
  import opened Base
  import opened Text

  /** Smallest size, in bytes, of a file the scraper accepts. */
  const MIN_FILE_SIZE: nat := 8 * 1024

  /** The Content-Type prefix every direct download is checked against. */
  const IMAGE_PREFIX: string := "image/"

  // ---------------------------------------------------------------------
  // Python's int() on a header value
  // ---------------------------------------------------------------------

  /** The ASCII characters `int()` skips around a numeral: space, tab,
      line feed, vertical tab, form feed and carriage return. The
      separators U+001C to U+001F, which `str.strip()` would remove, are
      not among them. */
  predicate IsSpace(c: char) {
    c == ' ' || 9 <= c as int <= 13
  }

  /** The most digits `int()` converts from a string (the default of
      `sys.get_int_max_str_digits()`); a longer numeral raises ValueError.
      Underscores do not count as digits. */
  const MAX_STR_DIGITS: nat := 4300

  predicate IsDigit(c: char) {
    '0' <= c <= '9'
  }

  /** `s` with its leading whitespace removed. */
  function StripLeft(s: string): (r: string)
    ensures |r| <= |s| && r == s[|s| - |r|..]
    ensures |r| > 0 ==> !IsSpace(r[0])
    ensures forall i :: 0 <= i < |s| - |r| ==> IsSpace(s[i])
  {
    if |s| > 0 && IsSpace(s[0]) then
      var r := StripLeft(s[1..]);
      assert forall i :: 0 < i < |s| - |r| ==> s[i] == s[1..][i - 1];
      r
    else s
  }

  /** `s` with its trailing whitespace removed. */
  function StripRight(s: string): (r: string)
    ensures |r| <= |s| && r == s[..|r|]
    ensures |r| > 0 ==> !IsSpace(r[|r| - 1])
    ensures forall i :: |r| <= i < |s| ==> IsSpace(s[i])
  {
    if |s| > 0 && IsSpace(s[|s| - 1]) then StripRight(s[..|s| - 1]) else s
  }

  function Strip(s: string): string {
    StripRight(StripLeft(s))
  }

  /** The digits of a decimal integer literal: at least one digit, and
      single underscores allowed only between two digits. */
  predicate IsDigitRun(s: string) {
    && |s| > 0
    && IsDigit(s[0])
    && IsDigit(s[|s| - 1])
    && (forall i :: 0 <= i < |s| ==> IsDigit(s[i]) || s[i] == '_')
    && (forall i :: 0 <= i < |s| - 1 ==> s[i] == '_' ==> s[i + 1] != '_')
  }

  /** A decimal integer literal, optionally signed. */
  predicate IsIntLiteral(t: string) {
    if |t| > 0 && (t[0] == '+' || t[0] == '-') then IsDigitRun(t[1..]) else IsDigitRun(t)
  }

  function DigitValue(c: char): (d: nat)
    requires IsDigit(c)
    ensures d < 10
  {
    c as int - '0' as int
  }

  /** The value of a run of digits, underscores ignored. */
  function DigitsValue(s: string): nat
    requires forall i :: 0 <= i < |s| ==> IsDigit(s[i]) || s[i] == '_'
  {
    if |s| == 0 then 0
    else if s[|s| - 1] == '_' then DigitsValue(s[..|s| - 1])
    else
      assert IsDigit(s[|s| - 1]);
      DigitsValue(s[..|s| - 1]) * 10 + DigitValue(s[|s| - 1])
  }

  /** The number of decimal digits in `s`. */
  function DigitCount(s: string): (n: nat)
    ensures n <= |s|
    ensures (forall i :: 0 <= i < |s| ==> IsDigit(s[i])) ==> n == |s|
  {
    if |s| == 0 then 0 else (if IsDigit(s[0]) then 1 else 0) + DigitCount(s[1..])
  }

  /** `int(s)` for a string `s`: surrounding whitespace is ignored, and a
      value that is not a decimal literal, or has more than MAX_STR_DIGITS
      digits, raises ValueError. */
  function PyInt(s: string): (r: Attempt<int>)
    ensures r.Returned? <==> IsIntLiteral(Strip(s)) && DigitCount(Strip(s)) <= MAX_STR_DIGITS
  {
    var t := Strip(s);
    if DigitCount(t) > MAX_STR_DIGITS then Raised
    else if |t| > 0 && (t[0] == '+' || t[0] == '-') then
      if IsDigitRun(t[1..]) then
        var v: int := DigitsValue(t[1..]);
        Returned(if t[0] == '-' then -v else v)
      else Raised
    else if IsDigitRun(t) then Returned(DigitsValue(t))
    else Raised
  }

  function Pow10(k: nat): (p: nat)
    ensures p >= 1
  {
    if k == 0 then 1 else 10 * Pow10(k - 1)
  }

  lemma {:induction false} Pow10Mono(i: nat, j: nat)
    requires i <= j
    ensures Pow10(i) <= Pow10(j)
    decreases j
  {
    if i < j {
      Pow10Mono(i, j - 1);
    }
  }

  /** The decimal digits of `n`, as a server writes a Content-Length: as
      many as `n` needs and no more. */
  function Show(n: nat): (r: string)
    ensures |r| > 0
    ensures forall i :: 0 <= i < |r| ==> IsDigit(r[i])
    ensures n < Pow10(|r|)
    ensures |r| > 1 ==> Pow10(|r| - 1) <= n
  {
    if n < 10 then [('0' as int + n) as char]
    else Show(n / 10) + [('0' as int + n % 10) as char]
  }

  lemma {:induction false} DigitsValueShow(n: nat)
    ensures DigitsValue(Show(n)) == n
  {
    if n >= 10 {
      var s := Show(n);
      assert s[..|s| - 1] == Show(n / 10);
      DigitsValueShow(n / 10);
    }
  }

  /** `int()` reads back every number written in decimal, as long as it
      has at most MAX_STR_DIGITS digits (by `ShowLength`, is below
      10^4300), and raises otherwise. */
  lemma PyIntShow(n: nat)
    ensures PyInt(Show(n)) == if |Show(n)| <= MAX_STR_DIGITS then Returned(n) else Raised
  {
    var s := Show(n);
    StripShow(n);
    assert !(s[0] == '+' || s[0] == '-');
    assert IsDigitRun(s);
    DigitsValueShow(n);
  }

  /** A number is written with at most `k` digits exactly when it is
      below 10^k. */
  lemma ShowLength(n: nat, k: nat)
    requires k > 0
    ensures |Show(n)| <= k <==> n < Pow10(k)
  {
    var s := Show(n);
    if |s| <= k {
      Pow10Mono(|s|, k);
    } else {
      Pow10Mono(k, |s| - 1);
    }
  }

  /** `int()` does not skip the ASCII separators U+001C to U+001F: a length
      that starts with one raises. */
  lemma SeparatorNotSkipped(c: char, n: nat)
    requires 28 <= c as int <= 31
    ensures PyInt([c] + Show(n)) == Raised
  {
    var s := [c] + Show(n);
    assert StripLeft(s) == s;
    assert Strip(s)[0] == c;
  }

  lemma StripShow(n: nat)
    ensures Strip(Show(n)) == Show(n)
  {
    var s := Show(n);
    assert !IsSpace(s[0]);
    assert StripLeft(s) == s;
    assert !IsSpace(s[|s| - 1]);
    assert StripRight(s) == s;
  }

  // ---------------------------------------------------------------------
  // is_valid_media
  // ---------------------------------------------------------------------

  /** The two response headers the validation looks at; `None` when the
      server did not send the header. */
  datatype Headers = Headers(contentType: Option<string>, contentLength: Option<string>)

  /** `int(headers.get("Content-Length", "0") or 0)`: a missing or empty
      header reads as 0, anything else goes through `int()`. */
  function ContentLength(h: Headers): (r: Attempt<int>)
    ensures h.contentLength.None? || h.contentLength == Some("") ==> r == Returned(0)
    ensures h.contentLength.Some? && h.contentLength.value != "" ==> r == PyInt(h.contentLength.value)
  {
    match h.contentLength
    case None => Returned(0)
    case Some(v) => if v == "" then Returned(0) else PyInt(v)
  }

  /** `is_valid_media(resp, prefix)`. Content-Length is parsed before the
      Content-Type test is combined with it, so a malformed length raises
      whatever the Content-Type. */
  function IsValidMedia(h: Headers, prefix: string): (r: Attempt<bool>)
    ensures r.Raised? <==> ContentLength(h).Raised?
    ensures r == Returned(true) <==>
      StartsWith(h.contentType.GetOr(""), prefix)
      && ContentLength(h).Returned? && ContentLength(h).value >= MIN_FILE_SIZE
  {
    var ct := h.contentType.GetOr("");
    match ContentLength(h)
    case Raised => Raised
    case Returned(cl) => Returned(StartsWith(ct, prefix) && cl >= MIN_FILE_SIZE)
  }

  /** A response whose Content-Length is missing or empty is never valid. */
  lemma MissingLengthInvalid(h: Headers, prefix: string)
    requires h.contentLength.None? || h.contentLength == Some("")
    ensures IsValidMedia(h, prefix) == Returned(false)
  {
  }

  /** With a length written in decimal, the check raises exactly when the
      length is past the digit limit, and otherwise the response is valid
      exactly when its Content-Type starts with the prefix and the length
      reaches the floor. */
  lemma ValidMediaDecimal(ct: Option<string>, n: nat, prefix: string)
    ensures IsValidMedia(Headers(ct, Some(Show(n))), prefix) == Returned(true)
        <==> |Show(n)| <= MAX_STR_DIGITS && StartsWith(ct.GetOr(""), prefix) && n >= MIN_FILE_SIZE
    ensures IsValidMedia(Headers(ct, Some(Show(n))), prefix).Returned? <==> |Show(n)| <= MAX_STR_DIGITS
  {
    PyIntShow(n);
  }

  // ---------------------------------------------------------------------
  // download_binary
  // ---------------------------------------------------------------------

  /** How the body transfer ended: all chunks written (the file then has
      `size` bytes), or an exception part-way. */
  datatype Body = Complete(size: nat) | Broken

  /** What one streamed GET produced: the request itself raised, or a
      response with headers and a body transfer. */
  datatype FetchOutcome = ConnectFailed | Fetched(headers: Headers, body: Body)

  /** The file at the output path. */
  datatype FileState = Absent | Present(size: nat)

  datatype Download = Download(ok: bool, file: FileState)

  /** The download succeeds: headers valid, transfer complete, and the
      written file at least MIN_FILE_SIZE bytes long. */
  predicate DownloadOk(fetch: FetchOutcome, prefix: string) {
    && fetch.Fetched?
    && IsValidMedia(fetch.headers, prefix) == Returned(true)
    && fetch.body.Complete?
    && fetch.body.size >= MIN_FILE_SIZE
  }

  /** The headers were read and rejected: the function returns before
      opening the output file. */
  predicate HeadersRejected(fetch: FetchOutcome, prefix: string) {
    fetch.Fetched? && IsValidMedia(fetch.headers, prefix) == Returned(false)
  }

  /** Some step raised: the request, the Content-Length parse, or the
      transfer of a validated response. */
  predicate RaisesInside(fetch: FetchOutcome, prefix: string) {
    || fetch.ConnectFailed?
    || IsValidMedia(fetch.headers, prefix).Raised?
    || (IsValidMedia(fetch.headers, prefix) == Returned(true) && fetch.body.Broken?)
  }

  /** `download_binary(url, out, prefix)`, given the file at `out` before
      the call and what the request produced; returns the boolean result
      and the file at `out` afterwards. */
  function DownloadBinary(before: FileState, fetch: FetchOutcome, prefix: string): (d: Download)
    ensures d.ok ==> d.file.Present? && d.file.size >= MIN_FILE_SIZE
    ensures d.ok <==> DownloadOk(fetch, prefix)
    ensures HeadersRejected(fetch, prefix) ==> d == Download(false, before)
    ensures RaisesInside(fetch, prefix) ==> d == Download(false, Absent)
    ensures fetch.Fetched? && IsValidMedia(fetch.headers, prefix) == Returned(true) && fetch.body.Complete?
      ==> d.file == Present(fetch.body.size)
  {
    match fetch
    case ConnectFailed => Download(false, Absent)
    case Fetched(h, body) =>
      match IsValidMedia(h, prefix)
      case Raised => Download(false, Absent)
      case Returned(valid) =>
        if !valid then Download(false, before)
        else match body
          case Broken => Download(false, Absent)
          case Complete(n) => Download(n >= MIN_FILE_SIZE, Present(n))
  }

  /** `download_binary(url, out, prefix)` when `out` is an existing
      directory (the name joined to the media directory was empty, `.` or
      `..`). Rejected headers return false before `out` is opened. In every
      other case the `except` branch finds `out` present and `os.remove`
      raises on the directory, outside the `try`: the call raises. */
  function DownloadIntoDirectory(fetch: FetchOutcome, prefix: string): (r: Attempt<bool>)
    ensures r.Returned? <==> HeadersRejected(fetch, prefix)
    ensures r.Returned? ==> !r.value
    ensures r.Raised? <==> !HeadersRejected(fetch, prefix)
  {
    match fetch
    case ConnectFailed => Raised
    case Fetched(h, _) =>
      match IsValidMedia(h, prefix)
      case Raised => Raised
      case Returned(valid) => if valid then Raised else Returned(false)
  }

  /** Every fetch falls in exactly one of the three cases the contract of
      `DownloadBinary` distinguishes. */
  lemma DownloadCasesExhaustive(fetch: FetchOutcome, prefix: string)
    ensures HeadersRejected(fetch, prefix) || RaisesInside(fetch, prefix)
      || (fetch.Fetched? && IsValidMedia(fetch.headers, prefix) == Returned(true) && fetch.body.Complete?)
    ensures !(HeadersRejected(fetch, prefix) && RaisesInside(fetch, prefix))
  {
  }

  /** A completed but undersized transfer returns false and leaves the
      short file in place. */
  lemma UndersizedKept(before: FileState, h: Headers, n: nat, prefix: string)
    requires IsValidMedia(h, prefix) == Returned(true)
    requires n < MIN_FILE_SIZE
    ensures DownloadBinary(before, Fetched(h, Complete(n)), prefix) == Download(false, Present(n))
  {
  }
}

=== FILE: pipeline.dfy ===
/** The scraper as the job runner sees it, end to end: from the responses
    of the listing and the media fetches to the job's final status record. */
module Pipeline {
  import opened Base
  import opened Text
  import opened Media
  import opened Classifier
  import opened Crawl
  import opened JobRunner

  /** The scraper run as a child process: it exits with `ExitCode(run)`;
      a run that finished wrote the stats file, a crashed one left whatever
      stats file was there before (`previous`). */
  function ScraperProcess(run: RunOutcome, previous: Option<Stats>): (c: ChildOutcome)
    requires !run.Incomplete?
    ensures c.ChildReturned?
    ensures c.code == 0 <==> run.Finished? && run.stats.filesDownloaded > 0
    ensures run.Finished? ==> c.statsFile == Some(run.stats)
  {
    match run
    case Finished(stats) => ChildReturned(ExitCode(run), Some(stats))
    case Crashed => ChildReturned(ExitCode(run), previous)
  }

  /** A job ends "completed" exactly when its scraper finished having
      counted a file, and its record then carries the run's statistics; a
      stale stats file from an earlier run never makes a job complete. */
  lemma JobCompletedIffMediaDownloaded(id: string, run: RunOutcome, previous: Option<Stats>)
    requires !run.Incomplete?
    ensures var c := ScraperProcess(run, previous);
      var rec := Finish(id, c.code, c.statsFile);
      && (rec.state == COMPLETED <==> run.Finished? && run.stats.filesDownloaded > 0)
      && (rec.state == COMPLETED ==> rec.stats == Some(run.stats) && rec.error == None)
      && (rec.state == FAILED ==> rec.error == Some(NO_MEDIA_ERROR))
  {
  }

  /** The job state that follows from a scrape over `feed`. */
  function JobStateAfter(id: string, files: map<Path, nat>, feed: seq<FeedResponse>, env: Env, previous: Option<Stats>): (state: string)
    requires !Scrape(files, feed, env).Incomplete?
    ensures state == COMPLETED || state == FAILED
    ensures var run := Scrape(files, feed, env);
      state == COMPLETED <==> run.Finished? && run.stats.images + run.stats.gifs + run.stats.videos > 0
  {
    var c := ScraperProcess(Scrape(files, feed, env), previous);
    Finish(id, c.code, c.statsFile).state
  }

  /** A run that finished without counting a file fails its job. */
  lemma NothingCountedFails(id: string, files: map<Path, nat>, feed: seq<FeedResponse>, env: Env, previous: Option<Stats>)
    requires Scrape(files, feed, env) == Finished(NoStats)
    ensures JobStateAfter(id, files, feed, env, previous) == FAILED
  {
  }

  /** A run that crashed, on a listing request or on a download into a
      directory path, fails its job, whatever stats file an earlier run
      left. */
  lemma CrashedRunFails(id: string, files: map<Path, nat>, feed: seq<FeedResponse>, env: Env, previous: Option<Stats>)
    requires Scrape(files, feed, env) == Crashed
    ensures JobStateAfter(id, files, feed, env, previous) == FAILED
  {
  }

  // ---------------------------------------------------------------------
  // Scenarios
  // ---------------------------------------------------------------------

  /** A link post to one URL, with no video and no gallery. */
  function LinkPost(u: string): Post {
    Post(false, None, u, [], u)
  }

  /** A response with the given content type and a 20000-byte body. */
  function Served(contentType: string): FetchOutcome {
    Fetched(Headers(Some(contentType), Some(Show(20000))), Complete(20000))
  }

  /** An image link is classified as that one image. */
  lemma ImageLinkRefs(u: string)
    requires IsImageName(u) && !OnVideoHost(u)
    ensures Refs(LinkPost(u)) == [MediaRef(Image, u)]
  {
    ImageAndGifExclusive(u);
    assert DestinationRefs(u) == [MediaRef(Image, u)];
    assert VideoUrl(LinkPost(u)) == None;
    assert GalleryRefs([]) == [];
  }

  /** "https://i.redd.it/a.JPG" is such a link: the suffix test ignores case. */
  lemma UpperCaseJpgIsImageLink()
    ensures IsImageName("https://i.redd.it/a.JPG")
  {
    var l := Lower("https://i.redd.it/a.JPG");
    assert |l| == 23;
    assert l[19] == '.' && l[20] == 'j' && l[21] == 'p' && l[22] == 'g';
    assert l[19..] == ".jpg";
    assert EndsWith(l, IMAGE_SUFFIXES[0]);
  }

  /** The walk over a single page holding one image link post, with no
      next cursor. */
  lemma OnePageWalk(u: string, env: Env)
    requires IsImageName(u) && !OnVideoHost(u)
    ensures var c := Initial(map[]);
      Walk(c, [Page(200, [LinkPost(u)], None)], env)
        == WalkEnd(FetchRef(c, MediaRef(Image, u), env).(after := None), NoCursor, 1)
  {
    var c := Initial(map[]);
    var feed := [Page(200, [LinkPost(u)], None)];
    var r := MediaRef(Image, u);
    ImageLinkRefs(u);
    ProcessOnePost(c, LinkPost(u), env);
    FetchOne(c, r, env);
    DestinationNamesFile(u);
    var c1 := FetchRef(c, r, env);
    assert !c1.crashed;
    assert c.(empty := 0) == c;
    assert ProcessPosts(c.(empty := 0), [LinkPost(u)], env) == c1;
    assert Step(c, feed[0], env) == Stop(c1.(after := None), NoCursor);
    WalkAfterStop(c, feed, env);
  }

  /** The run over that page finishes with the statistics of the one
      fetch it makes. */
  lemma OnePageScrape(u: string, env: Env)
    requires IsImageName(u) && !OnVideoHost(u)
    ensures Scrape(map[], [Page(200, [LinkPost(u)], None)], env)
      == Finished(FetchRef(Initial(map[]), MediaRef(Image, u), env).stats)
  {
    var feed := [Page(200, [LinkPost(u)], None)];
    var w := Walk(Initial(map[]), feed, env);
    OnePageWalk(u, env);
    assert w.exit == NoCursor;
    assert w.state.stats == FetchRef(Initial(map[]), MediaRef(Image, u), env).stats;
  }

  lemma JpegServedSucceeds()
    ensures DownloadOk(Served("image/jpeg"), IMAGE_PREFIX)
  {
    ValidMediaDecimal(Some("image/jpeg"), 20000, IMAGE_PREFIX);
    assert StartsWith("image/jpeg", IMAGE_PREFIX);
  }

  lemma HtmlServedFails()
    ensures !DownloadOk(Served("text/html"), IMAGE_PREFIX)
  {
    ValidMediaDecimal(Some("text/html"), 20000, IMAGE_PREFIX);
    assert !StartsWith("text/html", IMAGE_PREFIX) by {
      assert "text/html"[0] != IMAGE_PREFIX[0];
    }
  }

  /** A first fetch attempt that downloads an image counts one image. */
  lemma FirstImageCounts(u: string, env: Env)
    requires IsImageName(u)
    requires DownloadOk(env.fetch(0, u), IMAGE_PREFIX)
    ensures FetchRef(Initial(map[]), MediaRef(Image, u), env).stats == Stats(1, 0, 0, 1)
  {
    DestinationNamesFile(u);
    FirstCountedImage(Initial(map[]), MediaRef(Image, u), env);
  }

  lemma FirstCountedImage(c: CrawlState, r: MediaRef, env: Env)
    requires c.stats == NoStats && r.kind == Image && Succeeds(env, c.attempts, r)
    ensures FetchRef(c, r, env).stats == Stats(1, 0, 0, 1)
  {
    assert FetchRef(c, r, env).stats == Count(NoStats, Image);
  }

  /** One post linking an image served as image/jpeg with 20000 bytes:
      one image, one file ... */
  lemma ScenarioOneJpeg(u: string, env: Env)
    requires IsImageName(u) && !OnVideoHost(u)
    requires env.fetch(0, u) == Served("image/jpeg")
    ensures Scrape(map[], [Page(200, [LinkPost(u)], None)], env) == Finished(Stats(1, 0, 0, 1))
  {
    OnePageScrape(u, env);
    JpegServedSucceeds();
    FirstImageCounts(u, env);
  }

  /** ... and the job completes. */
  lemma ScenarioOneJpegCompletes(u: string, env: Env)
    requires IsImageName(u) && !OnVideoHost(u)
    requires env.fetch(0, u) == Served("image/jpeg")
    ensures !Scrape(map[], [Page(200, [LinkPost(u)], None)], env).Incomplete?
    ensures JobStateAfter("job_x", map[], [Page(200, [LinkPost(u)], None)], env, None) == COMPLETED
  {
    ScenarioOneJpeg(u, env);
    var run := Scrape(map[], [Page(200, [LinkPost(u)], None)], env);
    assert run.Finished? && run.stats.images == 1;
  }

  /** The same post answered with an HTML error page: nothing is counted
      ... */
  lemma ScenarioHtmlErrorPage(u: string, env: Env)
    requires IsImageName(u) && !OnVideoHost(u)
    requires env.fetch(0, u) == Served("text/html")
    ensures Scrape(map[], [Page(200, [LinkPost(u)], None)], env) == Finished(NoStats)
  {
    OnePageScrape(u, env);
    HtmlServedFails();
    assert !Succeeds(env, 0, MediaRef(Image, u));
    assert FetchRef(Initial(map[]), MediaRef(Image, u), env).stats == NoStats;
  }

  /** ... and the job fails. */
  lemma ScenarioHtmlErrorPageFails(u: string, env: Env)
    requires IsImageName(u) && !OnVideoHost(u)
    requires env.fetch(0, u) == Served("text/html")
    ensures !Scrape(map[], [Page(200, [LinkPost(u)], None)], env).Incomplete?
    ensures JobStateAfter("job_x", map[], [Page(200, [LinkPost(u)], None)], env, None) == FAILED
  {
    ScenarioHtmlErrorPage(u, env);
    NothingCountedFails("job_x", map[], [Page(200, [LinkPost(u)], None)], env, None);
  }

  /** A server error on the first listing request: the walk ends with zero
      statistics and the job fails. */
  lemma ScenarioServerError(env: Env)
    ensures Scrape(map[], [Page(500, [], None)], env) == Finished(NoStats)
  {
    WalkStopsOnError(Initial(map[]), [Page(500, [], None)], env);
    assert Walk(Initial(map[]), [Page(500, [], None)], env).exit == NotOk;
  }

  /** ... and the job fails. */
  lemma ScenarioServerErrorFails(env: Env)
    ensures !Scrape(map[], [Page(500, [], None)], env).Incomplete?
    ensures JobStateAfter("job_x", map[], [Page(500, [], None)], env, None) == FAILED
  {
    ScenarioServerError(env);
    NothingCountedFails("job_x", map[], [Page(500, [], None)], env, None);
  }
}

=== FILE: text.dfy ===
/** String operations the scraper and the job runner use, on `seq<char>`. */
module Text {

  /** `s.startswith(prefix)` */
  predicate StartsWith(s: string, prefix: string) {
    |prefix| <= |s| && s[..|prefix|] == prefix
  }

  /** `s.endswith(suffix)` */
  predicate EndsWith(s: string, suffix: string) {
    |suffix| <= |s| && s[|s| - |suffix|..] == suffix
  }

  /** `s.endswith(tuple_of_suffixes)` */
  predicate EndsWithAny(s: string, suffixes: seq<string>) {
    exists i :: 0 <= i < |suffixes| && EndsWith(s, suffixes[i])
  }

  /** `sub in s`, scanning the start positions of `s` from the left. */
  predicate Contains(s: string, sub: string)
    decreases |s|
  {
    StartsWith(s, sub) || (0 < |s| && Contains(s[1..], sub))
  }

  /** `sub` occurs in `s` starting at position `k`. */
  predicate OccursAt(s: string, sub: string, k: int) {
    0 <= k <= |s| - |sub| && s[k..k + |sub|] == sub
  }

  /** `sub in s` holds exactly when `sub` occurs at some position of `s`. */
  lemma {:induction false} ContainsIffOccurs(s: string, sub: string)
    ensures Contains(s, sub) <==> exists k :: OccursAt(s, sub, k)
    decreases |s|
  {
    if Contains(s, sub) {
      if StartsWith(s, sub) {
        assert OccursAt(s, sub, 0);
      } else {
        ContainsIffOccurs(s[1..], sub);
        var k :| OccursAt(s[1..], sub, k);
        assert s[1..][k..k + |sub|] == s[k + 1..k + 1 + |sub|];
        assert OccursAt(s, sub, k + 1);
      }
    } else if k :| OccursAt(s, sub, k) {
      if k > 0 {
        assert s[1..][k - 1..k - 1 + |sub|] == s[k..k + |sub|];
        assert OccursAt(s[1..], sub, k - 1);
        ContainsIffOccurs(s[1..], sub);
      }
    }
  }

  /** Lower-casing of one character, for the ASCII letters. */
  function LowerChar(c: char): char {
    if 'A' <= c <= 'Z' then (c as int + 32) as char else c
  }

  /** `s.lower()` restricted to ASCII letters. */
  function Lower(s: string): (r: string)
    ensures |r| == |s|
    ensures forall i :: 0 <= i < |s| ==> r[i] == LowerChar(s[i])
  {
    seq(|s|, i requires 0 <= i < |s| => LowerChar(s[i]))
  }

  /** `s.split(sep)[0]`: the part of `s` before the first `sep`. */
  function CutAt(s: string, sep: char): (r: string)
    ensures r <= s
    ensures sep !in r
    ensures |r| < |s| ==> s[|r|] == sep
  {
    if |s| == 0 then ""
    else if s[0] == sep then ""
    else [s[0]] + CutAt(s[1..], sep)
  }

  /** The three postconditions of `CutAt` pin its result down. */
  lemma CutAtUnique(s: string, sep: char, r: string)
    requires r <= s && sep !in r && (|r| < |s| ==> s[|r|] == sep)
    ensures CutAt(s, sep) == r
  {
  }

  /** `s.replace(pat, "")`: every non-overlapping occurrence of `pat`,
      found left to right, is deleted; the result is not scanned again. */
  function RemoveAll(s: string, pat: string): (r: string)
    requires |pat| > 0
    ensures |r| <= |s|
    ensures |r| == |s| <==> !Contains(s, pat)
    decreases |s|
  {
    if |s| == 0 then ""
    else if StartsWith(s, pat) then RemoveAll(s[|pat|..], pat)
    else [s[0]] + RemoveAll(s[1..], pat)
  }

  /** A string in which `pat` never occurs is left as it is. */
  lemma {:induction false} RemoveAllAbsent(s: string, pat: string)
    requires |pat| > 0
    requires !Contains(s, pat)
    ensures RemoveAll(s, pat) == s
    decreases |s|
  {
    if |s| > 0 {
      RemoveAllAbsent(s[1..], pat);
      assert [s[0]] + s[1..] == s;
    }
  }

  /** `os.path.basename(p)`: the part of `p` after its last '/'. */
  function BaseName(p: string): (r: string)
    ensures EndsWith(p, r)
    ensures '/' !in r
    ensures |r| < |p| ==> p[|p| - |r| - 1] == '/'
    decreases |p|
  {
    if |p| == 0 || p[|p| - 1] == '/' then ""
    else BaseName(p[..|p| - 1]) + [p[|p| - 1]]
  }

  /** `os.path.join(d, name)` names the directory `d` itself, or its
      parent, rather than a file in it. */
  predicate NamesDirectory(name: string) {
    name == "" || name == "." || name == ".."
  }
}
